=== FILE: README.md ===
# flstudio_llm core, modelled in Dafny

flstudio_llm asks a language model for a musical idea and turns the reply into
files that FL Studio can load. This project models the deterministic core that
sits between the model's reply and the files on disk, in `server.py` and its
twin `main.py`. The two files hold the same four functions line for line; only
`server.py` has the 3xOsc patcher.

- **Reply sanitising.** `clean_json_response` removes markdown fences and
  surrounding whitespace. `strip_json_comments` deletes `//` comments to the
  end of the line. Both, with the three `re.sub` calls they make, are in
  module `Sanitizer`. The Python string behaviour the project relies on
  (`str.strip`, `int(str)`, `lower()`, `in` on strings) is in `PyText`.
- **MIDI encoding.** `json_to_midi` (module `Midi`) sorts the notes stably by
  start beat with `sorted` (module `StableSort`). It converts beats to ticks
  with `int()` truncation (`PyNum`). It then emits a tempo event, a time
  signature and a note-on/note-off pair per note, with delta times measured
  from `last_tick`.
- **Preset writing.** `create_fxp_file` (module `Fxp`) packs the 56-byte
  `CcnK`/`FPCh`/`XfsX` header, a big-endian length (`Bytes`) and the payload.
  A parser of the same layout proves the packing reversible.
- **3xOsc patching.** `create_3xosc_fst` (module `ThreeOsc`) walks the
  `OSC_OFFSETS` table in order. Each parameter that is set is written into a
  copy of the template. Waveform names go through `OSC_WAVEFORM_MAP`. Numbers
  are clamped to 0..255 after `int()`. A value `int()` rejects raises, and so
  does an offset past the end of the template, or parameters that are not a
  JSON object.
- **Corrected MIDI encoder.** `MidiTimeline` is the corrected encoder (see
  Findings). It places every note-on at its start tick and every note-off at
  its end tick, then encodes the resulting time line as deltas.

The inputs of `create_fxp_file` and `create_3xosc_fst` are what `json.loads`
returns, modelled as `Json.Value`. The input of `json_to_midi` is the typed
record `Midi.MidiDoc` (see Left out). Errors are `Results.Result` values: a
Python exception becomes `false` where the source catches it and an `Err` case
where it propagates.

The model follows the code in these places:

- Ticks are `int(beats * ticks_per_beat)`, truncated toward zero, not rounded.
- `json_to_midi` checks neither the pitch range 0..127 nor the sign of a
  duration; only mido's own validation can refuse such notes.
- A parameter that `int()` cannot convert raises out of `create_3xosc_fst`
  (`Err(NotAnInteger)`); the field is not skipped, and later fields are not
  written.
- The patcher visits the `OSC_OFFSETS` table in order, not the keys of
  `params`. Unknown keys are ignored, and a `None` value counts as unset.
- `int()` of a string skips less whitespace than `strip()` removes. CPython
  passes ASCII characters to its number parser unchanged, and that parser
  skips only tab, line feed, vertical tab, form feed, carriage return and
  space. So the separators U+001C to U+001F make `int()` raise, while
  non-ASCII whitespace is skipped.
- `clean_json_response` removes every occurrence of the opening fence, not
  only a leading one.
- The second header word of an FXP file is the constant 0xfc6, whatever the
  payload's size.

## Model

| member | source | states |
|---|---|---|
| Sanitizer.CleanJsonResponse | server.py:37-43 | The cleaned reply is no longer than the input and neither starts nor ends with whitespace. A reply without backticks comes back exactly as `strip()` of itself. |
| Sanitizer.CleanFencedReply | main.py:36-42 | A reply made of the opening fence line, a backtick-free body and the closing fence cleans to the stripped body. |
| Sanitizer.DropOpenFences | server.py:39 | Removing the opening fences never lengthens the text and leaves a text without backticks unchanged. |
| Sanitizer.DropOpenFenceAnywhere | main.py:38 | An opening fence followed by a line break is removed wherever it occurs, together with that line break. The backtick-free text before it is kept. |
| Sanitizer.DropOpenFenceInline | server.py:39 | An opening fence not followed by a line break is removed alone, and the text after it is kept. |
| Sanitizer.DropClosingFence | server.py:40 | The text changes exactly when it ends in a fence, or in a fence and one line break. A final line break after the fence survives. |
| Sanitizer.DropClosingFenceOfBlock | main.py:39 | A closing fence on its own last line is removed together with the line break before it. With one trailing line break, that break is kept. |
| Sanitizer.DropClosingFenceGlued | server.py:40 | A closing fence glued to the last line is removed alone, both at the very end and just before a final line break, which is kept. |
| Sanitizer.DropClosingFenceNoBacktick | main.py:39 | A text without backticks has no closing fence to remove. |
| Sanitizer.StripJsonComments | server.py:45-47 | The result contains no `//`. It has exactly as many line breaks as the input. It starts with the input's first character unless that character opens a comment. |
| Sanitizer.StripCommentsLine | main.py:46 | On a single line, the result is the line cut at its first `//`. |
| Sanitizer.StripCommentsLines | server.py:47 | On a line followed by more text, the line is cut at its first `//`, its line break is kept, and the rest is stripped on its own. |
| Sanitizer.StripCommentsNoMarker | main.py:44-46 | A text without `//` is left unchanged. |
| Sanitizer.StripCommentsIdempotent | server.py:45-47 | Stripping comments twice gives the same text as stripping once. |
| PyText.StripBy | server.py:42 | `strip()` returns the part after the leading whitespace with only whitespace after it, and that part neither starts nor ends with whitespace. |
| PyText.StripUnique | main.py:41 | Only one part of a text is framed by whitespace and trimmed at both ends, so those two properties determine `strip()`. |
| PyText.StripTrimmed | main.py:41 | `strip()` leaves a text alone when it has no whitespace at either end. |
| PyText.AsciiLower | server.py:446 | Lower-casing keeps the length and maps exactly the letters A to Z to a to z. |
| PyText.ParseInt | server.py:448 | `int()` of a run of decimal digits is the number they spell. Any text it accepts ends, once stripped, in a digit, and a negative result needs a leading minus sign. |
| PyText.ParseIntStrip | server.py:448 | What `int()` skips around a number it accepts is whitespace to `strip()` as well, so both cut out the same part. The separators U+001C to U+001F are never skipped: a text holding one is rejected. |
| PyText.ParseIntSeparators | server.py:448 | `int()` rejects a separator before or after the digits. |
| PyText.ParseIntSkipsSpace | server.py:448 | `int()` skips a no-break space and a line feed around the digits. |
| PyText.ParseShowInt | server.py:448 | `int()` of the decimal spelling of an integer, negative ones included, gives that integer back (the digit limit is under Left out). |
| PyText.ParseIntNeedsDigit | server.py:448 | `int()` fails on a text without digits. |
| PyNum.Trunc | server.py:204-205 | `int()` of a number is the integer next to it in the direction of zero. |
| PyNum.TruncMonotone | main.py:204 | Truncation preserves order. |
| PyNum.Max | server.py:209 | `max(a, b)` is at least both arguments and is one of them. |
| PyNum.Clamp | server.py:448 | `max(lo, min(hi, v))` lies in the range, is `v` inside it, and is the nearer bound outside it. |
| StableSort.SortBy | server.py:203 | The sort result is ordered by key and is a permutation of its input. |
| StableSort.SortByKeepsTies | main.py:203 | Elements with equal keys keep their relative order, so the sort is stable. |
| StableSort.SortByUnique | server.py:203 | Any key-ordered sequence that keeps every tie group of the input in order is the sort result itself. |
| StableSort.InsertSorted | main.py:203 | Inserting into an ordered sequence keeps it ordered. |
| Midi.SortNotes | server.py:203 | The notes are put in start-beat order as a permutation of the input. A missing start counts as beat 0. |
| Midi.SortNotesStable | main.py:203 | Notes with equal start beats keep the order of the input. |
| Midi.StartTickOfBeats | server.py:204 | The start tick is the start beat times the ticks per beat, rounded toward zero, and exact for a start on a whole beat. |
| Midi.DurationTickOfBeats | server.py:205 | The duration in ticks is the duration in beats times the ticks per beat, rounded toward zero, and exact for a whole number of beats. |
| Midi.TicksFollowBeats | server.py:203-204 | A note that starts no earlier in beats gets no earlier start tick. |
| Midi.NoteEvents | main.py:203-212 | The loop yields two events per remaining note. When it raises, the error names the first note without a pitch or a velocity, and says which of the two is missing. |
| Midi.NoteEventsShape | server.py:203-212 | The note loop succeeds exactly when every note has a pitch and a velocity. It then yields one note-on and one note-off per note, in sorted order. |
| Midi.SortKeepsComplete | main.py:203-207 | Every note has a pitch and a velocity after the sort exactly when that was so before it. |
| Midi.BuildTrack | server.py:186-212 | A track is built exactly when the time signature has at least two entries, the notes are present and each has a pitch and a velocity. It has two meta events, tempo and time signature with the defaults 120 and [4, 4], then two events per note. |
| Midi.BuildTrackNotes | main.py:203-211 | Events 2+2j and 3+2j of the track are the note-on and note-off of the j-th note in start order. |
| Midi.NoteDeltas | server.py:209-211 | Each note-on has a non-negative delta. Each note-off follows its note-on, for the same pitch with velocity 0, after the note's duration in ticks. |
| Midi.NoteOnTicks | main.py:202-212 | Each note-on sounds no earlier than its start tick and its note-off exactly one duration later. When no note overlaps the previous one, each note-on sounds exactly at its start tick. |
| Midi.JsonToMidi | server.py:186-217 | The function reports success only for a well-formed document, and then exactly when mido accepts the track. |
| Midi.ChordNoteOnDelayed | main.py:209-212 | For two notes that both start at beat 0, the second note-on lands at tick 480 instead of tick 0. |
| MidiTimeline.Timeline | server.py:204-205 | The corrected time line holds each note's on and off event and nothing else, ordered by tick. |
| MidiTimeline.Encode | main.py:209 | Encoding a time line yields one event per entry, none with a negative delta. |
| MidiTimeline.EncodedTicks | server.py:209 | After two events at tick 0, summing the deltas of an encoded time line that starts at tick 0 or later and never goes back gives each entry's own tick. |
| MidiTimeline.BuildTimedTrack | server.py:186-212 | The corrected track is built exactly when the encoder's track is, and fails with the same error. It has the same meta events and length, and no negative delta. |
| MidiTimeline.TimedTrackTicks | main.py:202-212 | On a track whose notes do not start or end before tick 0, the k-th note event sounds at the tick of the k-th time-line entry. |
| MidiTimeline.TimedTrackPlays | server.py:209-211 | On a track whose notes do not start or end before tick 0, every event of the corrected track is its time-line entry, played at that entry's tick. |
| MidiTimeline.NoteSoundsOnTime | main.py:204-205 | On a track whose notes do not start or end before tick 0, every note's note-on sounds at its start tick and its note-off at its end tick, however the notes overlap. |
| MidiTimeline.ChordOnTime | server.py:209 | For two notes that both start at beat 0, the corrected track plays the second note-on at tick 0. |
| MidiTimeline.JsonToMidiTimed | main.py:186-217 | The corrected encoder reports success only for a well-formed document, and then exactly when mido accepts the corrected track. |
| Fxp.PresetName | server.py:155 | The name is the document's `preset_name` when that is a string and "Untitled" when it is missing. Any other value is an error. |
| Fxp.PadName | main.py:155 | The name is cut to 28 characters and padded with NULs to exactly 28. |
| Fxp.NameField | main.py:166 | The name field is exactly 28 bytes: the first 28 bytes of the UTF-8 encoding of the padded name. |
| Fxp.FitField | server.py:166 | A `28s` field takes the first 28 bytes, or pads a shorter value with zero bytes. |
| Fxp.NameFieldAscii | main.py:155-166 | An ASCII name is stored as its first 28 bytes followed by zero bytes. |
| Fxp.DefaultNameField | server.py:155 | Without a name, the field holds the bytes of "Untitled" and then zeros. |
| Fxp.Header | server.py:158-167 | The header is 56 bytes: the three magic tags, the fields 0xfc6, 1, 1 and 1 as big-endian 32-bit words, and the name field. |
| Fxp.Frame | main.py:176-179 | The written file is the header, then the payload length as a big-endian word, then the payload. |
| Fxp.PackFxp | server.py:151-179 | Packing succeeds exactly when the document is a JSON object, its name is text and the payload length fits 32 bits. Its bytes are the header, the length and the payload. |
| Fxp.CreateFxpFile | main.py:151-184 | The function returns true exactly when the document is a JSON object whose name is text or missing, the payload length fits 32 bits and the write succeeds. |
| Fxp.ParseWithHeader | server.py:158-179 | Any byte string that starts with a header and a length matching the rest parses as that name field and payload. |
| Fxp.ParsePackFxp | main.py:158-179 | Parsing a packed preset gives back its name field and its payload unchanged. |
| Bytes.Int32BE | server.py:178 | `>i` gives four bytes whose top bit is the sign. |
| Bytes.DecodeInt32BEOfEncode | main.py:178 | Decoding the `>i` bytes of a 32-bit value gives the value back. |
| Bytes.Int32BEOfDecode | server.py:160-165 | Every four bytes are the `>i` encoding of the value they decode to. |
| Bytes.Utf8 | main.py:166 | `encode()` never shortens the text and is the identity on ASCII text. |
| Bytes.DecodeUtf8OfEncode | server.py:166 | Strict UTF-8 decoding of the encoded text gives the text back. |
| Bytes.EncodeOfDecodeUtf8 | main.py:166 | Any bytes strict decoding accepts are the encoding of the text it returns, so the two are inverse. |
| Bytes.Utf8Injective | server.py:166 | Two different texts never encode to the same bytes. |
| ThreeOsc.WaveformCode | server.py:401-408 | A listed waveform name maps to its table value and any other name to 0. Codes lie in 0..4. |
| Json.Get | server.py:442 | `params.get(key)` is the value stored under the key, or `None` when there is none. |
| ThreeOsc.ToInt | server.py:448 | `int()` keeps integers, maps booleans to 0 and 1, truncates floats toward zero, parses strings, and fails on null, lists and objects. |
| ThreeOsc.FieldByte | server.py:444-448 | A string under a waveform key becomes its waveform code. Any other value is written as `int()` of it clamped to 0..255, or raises when `int()` fails. |
| ThreeOsc.OscOffsetsDistinct | server.py:410-433 | No two table entries share an offset. |
| ThreeOsc.OscOffsetsBelow | server.py:410 | Every offset is at most 247, so a 248-byte template holds them all. |
| ThreeOsc.OscKeysDistinct | server.py:410-433 | No two table entries name the same parameter. |
| ThreeOsc.OscEntries | server.py:410-433 | The table has 21 entries, starting with the first oscillator's waveform, coarse and fine offsets 159, 163 and 167. |
| ThreeOsc.Patch | server.py:441-449 | The loop keeps the data's length, and any exception it raises names a parameter that is set. |
| ThreeOsc.PatchOk | server.py:441-449 | Patching succeeds exactly when every set parameter converts and its offset is inside the data. |
| ThreeOsc.PatchKeeps | server.py:441-449 | A byte at no set parameter's offset keeps its template value. |
| ThreeOsc.PatchWrites | server.py:449 | Each set parameter's byte holds its converted value. |
| ThreeOsc.PatchBytes | server.py:441-449 | On a table without shared offsets, the loop's output has the data's length, each set offset holds its parameter's converted value, and every other byte is unchanged. |
| ThreeOsc.PatchSkip | server.py:442-443 | Unset or `None` parameters at the head of the table are passed over, as if they were not in it. |
| ThreeOsc.PatchRaises | server.py:448 | A set parameter that cannot be converted raises, naming it, when every set parameter before it converts and fits in the data. |
| ThreeOsc.PatchNothingSet | server.py:441-443 | With no table parameter set, each one missing or `None`, the data is returned unchanged. |
| ThreeOsc.Create3xOscFst | server.py:437-453 | The call fails with an attribute error exactly when the parameters are not a JSON object. Any other failure names a set parameter, and a result has the template's length. |
| ThreeOsc.Create3xOscFstOk | server.py:441-449 | The call returns normally exactly when the parameters are a JSON object whose set parameters all convert and land inside the template. |
| ThreeOsc.Create3xOscFstSucceeds | server.py:437-449 | A template of at least 248 bytes is patched without error whenever every set table parameter converts. Keys outside the table may hold anything. |
| ThreeOsc.Create3xOscFstBytes | server.py:437-453 | The output has the template's length. Bytes at no set offset are the template's, and each set offset holds its parameter's converted value. |
| ThreeOsc.Create3xOscFstAt | server.py:449 | The byte at one set parameter's offset is that parameter's converted value. |
| ThreeOsc.WrittenAt | server.py:441-449 | A set parameter whose value converts is written at its offset into a template of at least 248 bytes when every other parameter of the table converts too; keys outside the table are ignored. |
| ThreeOsc.Create3xOscFstNothingSet | server.py:441-443 | Parameters that leave every table key missing or `None` leave the template unchanged. |
| ThreeOsc.Create3xOscFstEmpty | server.py:437-453 | An empty parameter map writes the template back unchanged. |
| ThreeOsc.WaveformByName | server.py:445-446 | Setting a waveform key to a name writes the code of the lower-cased name, whatever else is set, as long as the other parameters of the table convert. |
| ThreeOsc.WaveformNames | server.py:401-408 | "SAW" is written as 2, and "Pulse", which the map lacks, as 0. |
| ThreeOsc.LargeNumberClamped | server.py:448 | A number above 255 is written as 255 for any parameter, as long as the other parameters of the table convert. |
| ThreeOsc.NegativeNumberClamped | server.py:448 | A negative number is written as 0 for any parameter, as long as the other parameters of the table convert. |
| ThreeOsc.WordForNumberRaises | server.py:448 | A word without digits for any parameter that is not a waveform raises, naming that parameter. |
| ThreeOsc.ShortTemplateRaises | server.py:449 | A template too short for the first offset raises when that parameter is set. |

## Left out

- HTTP transport, the language-model client, prompt construction, `client.py`,
  logging and the FastAPI endpoints around these functions are not modelled.
  They are I/O and do not change the bytes produced.
- `json.dumps` and `zlib.compress` in `create_fxp_file` are not modelled. The
  compressed payload is the parameter `chunk`, and only its length and its
  placement are modelled.
- Opening and writing files is not modelled. In `create_fxp_file`, the
  outcome of the write is the parameter `written`. In `create_3xosc_fst`, the
  template's bytes are a parameter and the patched bytes are the result.
- mido's own work is not modelled: `bpm2tempo`, message validation such as
  pitch and velocity in 0..127, and `MidiFile.save`. Whether mido accepts and
  saves the built track is the parameter `midoAccepts`. The tempo event
  carries beats per minute rather than microseconds per beat.
- The MIDI document is typed, which the source does not require. Each field
  is either absent or of the right type: numbers for tempo, start and duration,
  integers for pitch and velocity, and a list of integers for the time
  signature. Inputs outside these types are not modelled. Many of them make
  Python raise and return `False`, but some go through. A digit string as the
  start of a single note is repeated by `*` and then converted by `int()`, so
  `"0"` works as beat 0. A boolean counts as 0 or 1. An empty string or an
  empty object as the note list sorts to no notes. The end-of-track marker
  that `MidiFile.save` appends belongs to mido and is left out with it.
- Floats are modelled as exact reals, so rounding in `start * ticks_per_beat`,
  infinities and NaN are not modelled.
- PyText.AsciiLower: lowers A to Z only. Python's `lower()` also lowers
  non-ASCII letters. Only two non-ASCII characters lower to ASCII: KELVIN SIGN
  to 'k', and LATIN CAPITAL I WITH DOT ABOVE to 'i' plus a combining mark.
  Neither can turn a name into a waveform map key, so the written byte is the
  same.
- PyText.ParseInt: `int()` of a string is modelled for ASCII digits with an
  optional sign, underscores and the whitespace `int()` skips around them.
  Non-ASCII decimal digits, which Python also accepts, are not modelled. Python's limit on the
  number of digits in a string conversion is not modelled either. Since Python
  3.11, `int()` of a string with more than 4300 digits raises `ValueError`.
  That limit depends on the interpreter version and can be changed at run
  time, and the repository does not fix either. The model parses any number
  of digits.
- PyText.ParseShowInt: the round trip holds for every integer in the model.
  In Python 3.11 and later, `str()` and `int()` raise past the 4300-digit
  limit, so there it holds only for integers below that size.
- PyText.ParseIntNeedsDigit: a string made only of non-ASCII decimal digits,
  which Python converts, fails in the model (see PyText.ParseInt).
- ThreeOsc.ToInt: a string value is converted by PyText.ParseInt, with the
  same two gaps: non-ASCII digits and the digit limit.
- MidiTimeline.TimedTrackPlays: promised only for notes that neither start
  nor end before tick 0. The corrected encoder, like the source's
  `max(0, start_tick - last_tick)`, turns a delta below 0 into 0, so a note
  before tick 0 is played at tick 0 and every event after it moves later.
- MidiTimeline.NoteSoundsOnTime: promised only for notes that neither start
  nor end before tick 0, for the same reason: one note before tick 0 moves the
  events of the notes after it.
- Bytes.Utf8: lone surrogates, which make `encode()` raise, are not modelled.
  Dafny's `char` is a Unicode scalar value.
- A parameter value of a type other than JSON null, boolean, number, string,
  list or object cannot reach the function from a JSON request, so it is not
  modelled.

## Findings

| source | as written | input that shows it | evidently intended | confidence | as-written member | corrected member |
|---|---|---|---|---|---|---|
| server.py:202-212 | Each note-off is emitted right after its note-on. `last_tick` becomes the end of that note, so the next note-on's delta is measured from the previous note's end. Notes that overlap are played one after another. | Two notes with start 0.0 and duration 1.0 at 480 ticks per beat. The second note-on lands at tick 480, not 0. | Every note-on at its start tick and every note-off at start plus duration, with deltas taken between consecutive events in time order. | not executed | Midi.ChordNoteOnDelayed | MidiTimeline.BuildTimedTrack |

=== FILE: bytes.dfy ===
/** Bytes and the two byte encodings the preset packer uses: big-endian
    32-bit signed integers (`struct.pack('>i', ...)`) and UTF-8 text
    (`str.encode()`). */
module Bytes {
  import opened Results

  type uint8 = x: int | 0 <= x < 0x100

  const Int32Min: int := -0x8000_0000
  const Int32Limit: int := 0x8000_0000

  /** The values `struct.pack('>i', v)` accepts; any other raises `struct.error`. */
  predicate FitsInt32(v: int) {
    Int32Min <= v < Int32Limit
  }

  /** `struct.pack('>i', v)`: two's complement, most significant byte first. */
  function Int32BE(v: int): (r: seq<uint8>)
    requires FitsInt32(v)
    ensures |r| == 4
    ensures 0 <= v ==> r[0] < 0x80
    ensures v < 0 ==> 0x80 <= r[0]
  {
    var u := if v < 0 then v + 0x1_0000_0000 else v;
    [u / 0x100_0000, (u / 0x1_0000) % 0x100, (u / 0x100) % 0x100, u % 0x100]
  }

  /** `struct.unpack('>i', b)[0]`. */
  function DecodeInt32BE(b: seq<uint8>): (v: int)
    requires |b| == 4
    ensures FitsInt32(v)
  {
    var u := Unsigned(b);
    if u >= Int32Limit then u - 0x1_0000_0000 else u
  }

  /** A byte appended below `hi` is recovered by `/` and `%`. */
  lemma ByteSplit(hi: int, lo: int)
    requires 0 <= lo < 0x100
    ensures (hi * 0x100 + lo) / 0x100 == hi && (hi * 0x100 + lo) % 0x100 == lo
  {
  }

  /** Dividing by 2^16 or 2^24 is dividing by 2^8 two or three times. */
  lemma DivBytes(u: int)
    requires 0 <= u
    ensures u / 0x1_0000 == (u / 0x100) / 0x100
    ensures u / 0x100_0000 == ((u / 0x100) / 0x100) / 0x100
  {
    var q1 := u / 0x100;
    var q2 := q1 / 0x100;
    var q3 := q2 / 0x100;
    assert u == q2 * 0x1_0000 + ((q1 % 0x100) * 0x100 + u % 0x100);
    assert 0 <= (q1 % 0x100) * 0x100 + u % 0x100 < 0x1_0000;
    assert u == q3 * 0x100_0000 + ((q2 % 0x100) * 0x1_0000 + (q1 % 0x100) * 0x100 + u % 0x100);
    assert 0 <= (q2 % 0x100) * 0x1_0000 + (q1 % 0x100) * 0x100 + u % 0x100 < 0x100_0000;
  }

  /** The unsigned value of four big-endian bytes. */
  function Unsigned(b: seq<uint8>): (u: int)
    requires |b| == 4
    ensures 0 <= u < 0x1_0000_0000
  {
    ((b[0] as int * 0x100 + b[1] as int) * 0x100 + b[2] as int) * 0x100 + b[3] as int
  }

  /** Decoding recovers every value encoding accepts. */
  lemma DecodeInt32BEOfEncode(v: int)
    requires FitsInt32(v)
    ensures DecodeInt32BE(Int32BE(v)) == v
  {
    var u := if v < 0 then v + 0x1_0000_0000 else v;
    var b := Int32BE(v);
    DivBytes(u);
    var q1 := u / 0x100;
    var q2 := q1 / 0x100;
    assert u == q1 * 0x100 + u % 0x100;
    assert q1 == q2 * 0x100 + q1 % 0x100;
    assert q2 == (q2 / 0x100) * 0x100 + q2 % 0x100;
    assert u == Unsigned(b);
  }

  /** Encoding recovers every four bytes decoding reads. */
  lemma Int32BEOfDecode(b: seq<uint8>)
    requires |b| == 4
    ensures Int32BE(DecodeInt32BE(b)) == b
  {
    var hi1 := (b[0] as int * 0x100 + b[1] as int) * 0x100 + b[2] as int;
    var hi2 := b[0] as int * 0x100 + b[1] as int;
    var u := Unsigned(b);
    ByteSplit(hi1, b[3]);
    ByteSplit(hi2, b[2]);
    ByteSplit(b[0], b[1]);
    DivBytes(u);
    var v := DecodeInt32BE(b);
    assert (if v < 0 then v + 0x1_0000_0000 else v) == u;
  }

  /** The bytes of an ASCII string: each character's code. */
  predicate IsAscii(s: string) {
    forall i :: 0 <= i < |s| ==> s[i] as int < 0x80
  }

  function AsciiBytes(s: string): (r: seq<uint8>)
    requires IsAscii(s)
    ensures |r| == |s|
    ensures forall i :: 0 <= i < |s| ==> r[i] == s[i] as int
  {
    seq(|s|, i requires 0 <= i < |s| => s[i] as int)
  }

  /** A UTF-8 continuation byte, 10xxxxxx. */
  predicate IsContinuation(b: uint8) {
    0x80 <= b < 0xC0
  }

  /** The UTF-8 encoding of one code point: one byte below U+0080, otherwise a
      lead byte announcing the length followed by continuation bytes. */
  function Utf8Char(c: char): (r: seq<uint8>)
    ensures 1 <= |r| <= 4
    ensures |r| == (if c as int < 0x80 then 1 else if c as int < 0x800 then 2
                    else if c as int < 0x1_0000 then 3 else 4)
    ensures |r| == 1 ==> r[0] == c as int
    ensures |r| > 1 ==> 0xC0 <= r[0] && forall i :: 1 <= i < |r| ==> IsContinuation(r[i])
  {
    var n := c as int;
    if n < 0x80 then [n]
    else if n < 0x800 then [0xC0 + n / 0x40, 0x80 + n % 0x40]
    else if n < 0x1_0000 then [0xE0 + n / 0x1000, 0x80 + (n / 0x40) % 0x40, 0x80 + n % 0x40]
    else [0xF0 + n / 0x4_0000, 0x80 + (n / 0x1000) % 0x40, 0x80 + (n / 0x40) % 0x40, 0x80 + n % 0x40]
  }

  /** `s.encode()`: the code points' encodings one after the other. */
  function Utf8(s: string): (r: seq<uint8>)
    ensures |s| <= |r|
    ensures IsAscii(s) ==> r == AsciiBytes(s)
  {
    if s == [] then []
    else
      var r := Utf8Char(s[0]) + Utf8(s[1..]);
      assert IsAscii(s) ==> r == [s[0] as int] + AsciiBytes(s[1..]);
      r
  }

  /** The number of bytes a UTF-8 sequence with this lead byte has, or 0 for
      a byte that cannot start one. */
  function SequenceLength(lead: uint8): nat {
    if lead < 0x80 then 1
    else if lead < 0xC0 then 0
    else if lead < 0xE0 then 2
    else if lead < 0xF0 then 3
    else if lead < 0xF8 then 4
    else 0
  }

  /** The low six bits of a continuation byte. */
  function Low6(b: uint8): int {
    b as int - 0x80
  }

  /** The code point that a lead byte and its continuation bytes carry: the
      lead's low bits, then six bits from each continuation byte. */
  function SequenceValue(b: seq<uint8>): int
    requires 1 <= |b| <= 4
  {
    if |b| == 1 then b[0] as int
    else if |b| == 2 then (b[0] as int - 0xC0) * 0x40 + Low6(b[1])
    else if |b| == 3 then ((b[0] as int - 0xE0) * 0x40 + Low6(b[1])) * 0x40 + Low6(b[2])
    else (((b[0] as int - 0xF0) * 0x40 + Low6(b[1])) * 0x40 + Low6(b[2])) * 0x40 + Low6(b[3])
  }

  /** The smallest code point that needs `n` bytes. */
  function SequenceFloor(n: nat): int {
    if n <= 1 then 0 else if n == 2 then 0x80 else if n == 3 then 0x800 else 0x1_0000
  }

  /** A Unicode scalar value: a code point that is not a surrogate. */
  predicate IsScalar(v: int) {
    0 <= v < 0xD800 || 0xE000 <= v < 0x11_0000
  }

  /** The bytes of one well-formed UTF-8 character: a lead byte announcing
      their number, continuation bytes after it, and a scalar value written
      with the fewest bytes. */
  predicate ValidSequence(b: seq<uint8>) {
    && 1 <= |b| <= 4
    && SequenceLength(b[0]) == |b|
    && (forall i :: 1 <= i < |b| ==> IsContinuation(b[i]))
    && SequenceFloor(|b|) <= SequenceValue(b)
    && IsScalar(SequenceValue(b))
  }

  /** `b.decode()`, strict UTF-8: `None` where Python raises
      `UnicodeDecodeError`. */
  function DecodeUtf8(b: seq<uint8>): (r: Option<string>)
    ensures r.Some? ==> |r.value| <= |b|
    decreases |b|
  {
    if b == [] then Some([])
    else
      var n := SequenceLength(b[0]);
      if n == 0 || |b| < n || !ValidSequence(b[..n]) then None
      else
        match DecodeUtf8(b[n..])
        case None => None
        case Some(rest) => Some([SequenceValue(b[..n]) as char] + rest)
  }

  /** Six bits at a time: dividing by 2^12 or 2^18 is dividing by 2^6 two or
      three times. */
  lemma DivSixBits(u: int)
    requires 0 <= u
    ensures u / 0x1000 == (u / 0x40) / 0x40
    ensures u / 0x4_0000 == ((u / 0x40) / 0x40) / 0x40
  {
    var q1 := u / 0x40;
    var q2 := q1 / 0x40;
    var q3 := q2 / 0x40;
    assert u == q2 * 0x1000 + ((q1 % 0x40) * 0x40 + u % 0x40);
    assert 0 <= (q1 % 0x40) * 0x40 + u % 0x40 < 0x1000;
    assert u == q3 * 0x4_0000 + ((q2 % 0x40) * 0x1000 + (q1 % 0x40) * 0x40 + u % 0x40);
    assert 0 <= (q2 % 0x40) * 0x1000 + (q1 % 0x40) * 0x40 + u % 0x40 < 0x4_0000;
  }

  /** One character's encoding is a well-formed sequence that reads back as
      that character. */
  lemma DecodeUtf8Char(c: char)
    ensures ValidSequence(Utf8Char(c)) && SequenceValue(Utf8Char(c)) == c as int
  {
    var n := c as int;
    DivSixBits(n);
    var q1 := n / 0x40;
    var q2 := q1 / 0x40;
    assert n == q1 * 0x40 + n % 0x40;
    assert q1 == q2 * 0x40 + q1 % 0x40;
    assert q2 == (q2 / 0x40) * 0x40 + q2 % 0x40;
  }

  /** Decoding the encoding gives the text back. */
  lemma {:induction false} DecodeUtf8OfEncode(s: string)
    ensures DecodeUtf8(Utf8(s)) == Some(s)
  {
    if s != [] {
      var e := Utf8Char(s[0]);
      var b := Utf8(s);
      DecodeUtf8Char(s[0]);
      assert b == e + Utf8(s[1..]);
      assert b[..|e|] == e && b[|e|..] == Utf8(s[1..]);
      DecodeUtf8OfEncode(s[1..]);
      assert (SequenceValue(e) as char) == s[0];
      assert [s[0]] + s[1..] == s;
    }
  }

  /** Different texts have different encodings. */
  lemma Utf8Injective(s: string, t: string)
    requires Utf8(s) == Utf8(t)
    ensures s == t
  {
    DecodeUtf8OfEncode(s);
    DecodeUtf8OfEncode(t);
  }

  /** Six low bits appended below `hi` are recovered by `/` and `%`. */
  lemma SixBitSplit(hi: int, lo: int)
    requires 0 <= lo < 0x40
    ensures (hi * 0x40 + lo) / 0x40 == hi && (hi * 0x40 + lo) % 0x40 == lo
  {
  }

  /** A well-formed two-byte sequence is the encoding of its value. */
  lemma EncodeOfSequence2(b: seq<uint8>)
    requires ValidSequence(b) && |b| == 2
    ensures Utf8Char(SequenceValue(b) as char) == b
  {
    SixBitSplit(b[0] as int - 0xC0, Low6(b[1]));
  }

  /** A well-formed three-byte sequence is the encoding of its value. */
  lemma EncodeOfSequence3(b: seq<uint8>)
    requires ValidSequence(b) && |b| == 3
    ensures Utf8Char(SequenceValue(b) as char) == b
  {
    var hi := (b[0] as int - 0xE0) * 0x40 + Low6(b[1]);
    SixBitSplit(hi, Low6(b[2]));
    SixBitSplit(b[0] as int - 0xE0, Low6(b[1]));
    DivSixBits(SequenceValue(b));
  }

  /** A well-formed four-byte sequence is the encoding of its value. */
  lemma EncodeOfSequence4(b: seq<uint8>)
    requires ValidSequence(b) && |b| == 4
    ensures Utf8Char(SequenceValue(b) as char) == b
  {
    var hi2 := (b[0] as int - 0xF0) * 0x40 + Low6(b[1]);
    var hi := hi2 * 0x40 + Low6(b[2]);
    SixBitSplit(hi, Low6(b[3]));
    SixBitSplit(hi2, Low6(b[2]));
    SixBitSplit(b[0] as int - 0xF0, Low6(b[1]));
    DivSixBits(SequenceValue(b));
  }

  /** A well-formed sequence is the encoding of the character it carries. */
  lemma EncodeOfSequence(b: seq<uint8>)
    requires ValidSequence(b)
    ensures Utf8Char(SequenceValue(b) as char) == b
  {
    if |b| == 2 {
      EncodeOfSequence2(b);
    } else if |b| == 3 {
      EncodeOfSequence3(b);
    } else if |b| == 4 {
      EncodeOfSequence4(b);
    }
  }

  /** Whatever the decoder accepts is the encoding of the text it returns. */
  lemma {:induction false} EncodeOfDecodeUtf8(b: seq<uint8>)
    requires DecodeUtf8(b).Some?
    ensures Utf8(DecodeUtf8(b).value) == b
    decreases |b|
  {
    if b != [] {
      var n := SequenceLength(b[0]);
      var c := SequenceValue(b[..n]) as char;
      var rest := DecodeUtf8(b[n..]).value;
      assert DecodeUtf8(b).value == [c] + rest;
      EncodeOfSequence(b[..n]);
      EncodeOfDecodeUtf8(b[n..]);
      Utf8Cons(c, rest);
      assert b == b[..n] + b[n..];
    }
  }

  /** Encoding one more character in front appends its bytes in front. */
  lemma Utf8Cons(c: char, s: string)
    ensures Utf8([c] + s) == Utf8Char(c) + Utf8(s)
  {
    assert ([c] + s)[1..] == s;
  }
}

=== FILE: fxp.dfy ===
/** The FXP packer, `create_fxp_file`: a 56-byte big-endian header laid out
    as the opaque-chunk program ("CcnK" / "FPCh") of the VST 2 preset format
    (`fxProgram` in `vstfxstore.h`), then the chunk size and the chunk. The
    chunk is `zlib.compress(json.dumps(preset_data).encode())`, which the model
    takes as given bytes. */
module Fxp {
  import opened Results
  import opened Bytes
  import opened Json

  const NameSize: nat := 28
  const HeaderSize: nat := 56

  /** The integer fields the code writes: `0xfc6` where the VST layout has the
      chunk's byte size, then format version, plug-in version and number of
      programs. */
  const ByteSizeField: int := 0xfc6
  const FormatVersion: int := 1
  const PluginVersion: int := 1
  const ProgramCount: int := 1

  const DefaultName: string := "Untitled"

  function ChunkMagic(): seq<uint8> { AsciiBytes("CcnK") }
  function ProgramMagic(): seq<uint8> { AsciiBytes("FPCh") }
  function PluginId(): seq<uint8> { AsciiBytes("XfsX") }

  /** Why `create_fxp_file` logs an error and returns `False`. */
  datatype FxpError =
    | NameNotText            // `preset_name` is not a string: slicing or `ljust` raises
    | ChunkTooLarge          // `struct.pack('>i', len(...))` raises `struct.error`
    | NotAnObject            // `preset_data.get` raises `AttributeError`: not a JSON object

  /** `preset_data.get("preset_name", "Untitled")`, when it is a string. */
  function PresetName(doc: map<string, Value>): (r: Option<string>)
    ensures "preset_name" !in doc ==> r == Some(DefaultName)
    ensures "preset_name" in doc ==> (r.Some? <==> doc["preset_name"].Str?)
    ensures r.Some? && "preset_name" in doc ==> r.value == doc["preset_name"].s
  {
    if "preset_name" !in doc then Some(DefaultName)
    else match doc["preset_name"]
      case Str(s) => Some(s)
      case _ => None
  }

  function Min(a: nat, b: nat): nat {
    if a < b then a else b
  }

  /** `name[:28].ljust(28, '\0')`: at most 28 characters, NUL-padded to 28. */
  function PadName(name: string): (r: string)
    ensures |r| == NameSize
    ensures r[..Min(|name|, NameSize)] == name[..Min(|name|, NameSize)]
    ensures forall i :: Min(|name|, NameSize) <= i < NameSize ==> r[i] == '\0'
  {
    var k := Min(|name|, NameSize);
    name[..k] + seq(NameSize - k, _ => '\0')
  }

  /** `struct.pack('28s', b)`: `b` cut to 28 bytes, or NUL-padded to 28. */
  function FitField(b: seq<uint8>): (r: seq<uint8>)
    ensures |r| == NameSize
    ensures NameSize <= |b| ==> r == b[..NameSize]
    ensures |b| < NameSize ==> r[..|b|] == b && forall i :: |b| <= i < NameSize ==> r[i] == 0
  {
    if NameSize <= |b| then b[..NameSize] else b + seq(NameSize - |b|, _ => 0)
  }

  /** The 28-byte name field written for `name`. */
  function NameField(name: string): (r: seq<uint8>)
    ensures |r| == NameSize
    ensures r == Utf8(PadName(name))[..NameSize]
  {
    FitField(Utf8(PadName(name)))
  }

  /** An ASCII name is written byte for byte, cut at 28 and padded with NUL
      bytes. Longer encodings are cut at byte 28, even in the middle of a
      character. */
  lemma NameFieldAscii(name: string)
    requires IsAscii(name)
    ensures NameField(name)[..Min(|name|, NameSize)] == AsciiBytes(name)[..Min(|name|, NameSize)]
    ensures forall i :: Min(|name|, NameSize) <= i < NameSize ==> NameField(name)[i] == 0
  {
    var p := PadName(name);
    assert IsAscii(p) by {
      forall i | 0 <= i < |p|
        ensures p[i] as int < 0x80
      {
        if i < Min(|name|, NameSize) {
          assert p[i] == p[..Min(|name|, NameSize)][i] == name[i];
        }
      }
    }
    var k := Min(|name|, NameSize);
    forall i | 0 <= i < k
      ensures NameField(name)[..k][i] == AsciiBytes(name)[..k][i]
    {
      assert p[i] == p[..k][i] == name[..k][i] == name[i];
    }
  }

  /** The fixed header: `struct.pack('>4si4si4sii28s', ...)`. */
  function Header(name: string): (r: seq<uint8>)
    ensures |r| == HeaderSize
    ensures r[0..4] == ChunkMagic() && r[8..12] == ProgramMagic() && r[16..20] == PluginId()
    ensures DecodeInt32BE(r[4..8]) == ByteSizeField
    ensures DecodeInt32BE(r[12..16]) == FormatVersion
    ensures DecodeInt32BE(r[20..24]) == PluginVersion
    ensures DecodeInt32BE(r[24..28]) == ProgramCount
    ensures r[28..56] == NameField(name)
  {
    DecodeInt32BEOfEncode(ByteSizeField);
    DecodeInt32BEOfEncode(FormatVersion);
    DecodeInt32BEOfEncode(PluginVersion);
    DecodeInt32BEOfEncode(ProgramCount);
    var r := ChunkMagic() + Int32BE(ByteSizeField) + ProgramMagic() + Int32BE(FormatVersion)
      + PluginId() + Int32BE(PluginVersion) + Int32BE(ProgramCount) + NameField(name);
    assert r[4..8] == Int32BE(ByteSizeField);
    assert r[12..16] == Int32BE(FormatVersion);
    assert r[20..24] == Int32BE(PluginVersion);
    assert r[24..28] == Int32BE(ProgramCount);
    r
  }

  /** A header, the chunk's size as a big-endian 32-bit integer, the chunk. */
  function Frame(h: seq<uint8>, chunk: seq<uint8>): (r: seq<uint8>)
    requires |h| == HeaderSize && FitsInt32(|chunk|)
    ensures |r| == HeaderSize + 4 + |chunk|
    ensures r[..HeaderSize] == h
    ensures DecodeInt32BE(r[HeaderSize..HeaderSize + 4]) == |chunk|
    ensures r[HeaderSize + 4..] == chunk
  {
    DecodeInt32BEOfEncode(|chunk|);
    ConcatParts(h, Int32BE(|chunk|), chunk);
    h + Int32BE(|chunk|) + chunk
  }

  lemma ConcatParts(h: seq<uint8>, m: seq<uint8>, c: seq<uint8>)
    ensures (h + m + c)[..|h|] == h
    ensures (h + m + c)[|h|..|h| + |m|] == m
    ensures (h + m + c)[|h| + |m|..] == c
  {
  }

  /** The bytes `create_fxp_file` writes for the parsed JSON `doc` when its
      compressed JSON is `chunk`, or the reason it returns `False`. */
  function PackFxp(doc: Value, chunk: seq<uint8>): (r: Result<seq<uint8>, FxpError>)
    ensures r.Ok? <==> doc.Obj? && PresetName(doc.fields).Some? && FitsInt32(|chunk|)
    ensures !doc.Obj? ==> r == Err(NotAnObject)
    ensures doc.Obj? && PresetName(doc.fields).None? ==> r == Err(NameNotText)
    ensures r.Ok? ==> |r.value| == HeaderSize + 4 + |chunk|
    ensures r.Ok? ==> r.value[..HeaderSize] == Header(PresetName(doc.fields).value)
    ensures r.Ok? ==> DecodeInt32BE(r.value[HeaderSize..HeaderSize + 4]) == |chunk|
    ensures r.Ok? ==> r.value[HeaderSize + 4..] == chunk
  {
    if !doc.Obj? then Err(NotAnObject)
    else match PresetName(doc.fields)
    case None => Err(NameNotText)
    case Some(name) =>
      if !FitsInt32(|chunk|) then Err(ChunkTooLarge)
      else Ok(Frame(Header(name), chunk))
  }

  /** `create_fxp_file(preset_data, output_path)`: `True` when the bytes were
      built and `written` (the file could be opened and written). Every
      exception is caught and turned into `False`. */
  function CreateFxpFile(doc: Value, chunk: seq<uint8>, written: bool): (ok: bool)
    ensures ok <==> written && doc.Obj? && FitsInt32(|chunk|)
                    && ("preset_name" !in doc.fields || doc.fields["preset_name"].Str?)
  {
    PackFxp(doc, chunk).Ok? && written
  }

  /** The fields of a program file as a reader recovers them. */
  datatype Program = Program(name: seq<uint8>, chunk: seq<uint8>)

  /** Reads a program file back: checks the magic numbers and constant fields,
      and takes the chunk whose length the size field gives. */
  function ParseFxp(b: seq<uint8>): (r: Option<Program>)
    ensures r.Some? ==> |r.value.name| == NameSize
    ensures r.Some? ==> |b| == HeaderSize + 4 + |r.value.chunk|
  {
    if |b| < HeaderSize + 4 then None
    else if b[0..4] != ChunkMagic() || b[8..12] != ProgramMagic() || b[16..20] != PluginId() then None
    else if DecodeInt32BE(b[4..8]) != ByteSizeField || DecodeInt32BE(b[12..16]) != FormatVersion
         || DecodeInt32BE(b[20..24]) != PluginVersion || DecodeInt32BE(b[24..28]) != ProgramCount then None
    else if DecodeInt32BE(b[HeaderSize..HeaderSize + 4]) != |b| - HeaderSize - 4 then None
    else Some(Program(b[28..HeaderSize], b[HeaderSize + 4..]))
  }

  lemma SliceOfPrefix(b: seq<uint8>, h: seq<uint8>, j: nat, k: nat)
    requires |h| <= |b| && b[..|h|] == h && j <= k <= |h|
    ensures b[j..k] == h[j..k]
  {
    forall i | 0 <= i < k - j
      ensures b[j..k][i] == h[j..k][i]
    {
      assert b[j + i] == b[..|h|][j + i];
    }
  }

  /** A file whose header is `Header(name)` and whose size field matches the
      rest is read back with that name field. */
  lemma ParseWithHeader(b: seq<uint8>, name: string)
    requires |b| >= HeaderSize + 4 && b[..HeaderSize] == Header(name)
    requires DecodeInt32BE(b[HeaderSize..HeaderSize + 4]) == |b| - HeaderSize - 4
    ensures ParseFxp(b) == Some(Program(NameField(name), b[HeaderSize + 4..]))
  {
    var h := Header(name);
    SliceOfPrefix(b, h, 0, 4);
    SliceOfPrefix(b, h, 4, 8);
    SliceOfPrefix(b, h, 8, 12);
    SliceOfPrefix(b, h, 12, 16);
    SliceOfPrefix(b, h, 16, 20);
    SliceOfPrefix(b, h, 20, 24);
    SliceOfPrefix(b, h, 24, 28);
    SliceOfPrefix(b, h, 28, 56);
  }

  /** Reading back a packed file recovers the name field and the chunk. */
  lemma ParsePackFxp(doc: Value, chunk: seq<uint8>)
    requires PackFxp(doc, chunk).Ok?
    ensures ParseFxp(PackFxp(doc, chunk).value)
         == Some(Program(NameField(PresetName(doc.fields).value), chunk))
  {
    ParseWithHeader(PackFxp(doc, chunk).value, PresetName(doc.fields).value);
  }

  /** The default name is ASCII, and these are its bytes. */
  lemma UntitledBytes(n: string)
    requires n == DefaultName
    ensures IsAscii(n) && |n| == 8
    ensures AsciiBytes(n) == [0x55, 0x6E, 0x74, 0x69, 0x74, 0x6C, 0x65, 0x64]
  {
    assert n[0] == 'U' && n[1] == 'n' && n[2] == 't' && n[3] == 'i';
    assert n[4] == 't' && n[5] == 'l' && n[6] == 'e' && n[7] == 'd';
  }

  /** Without a `preset_name` the name field reads "Untitled" and NULs. */
  lemma DefaultNameField()
    ensures NameField(DefaultName)[..8] == [0x55, 0x6E, 0x74, 0x69, 0x74, 0x6C, 0x65, 0x64]
    ensures forall i :: 8 <= i < NameSize ==> NameField(DefaultName)[i] == 0
  {
    UntitledBytes(DefaultName);
    NameFieldAscii(DefaultName);
    assert AsciiBytes(DefaultName)[..8] == AsciiBytes(DefaultName);
  }
}

=== FILE: json.dfy ===
/** The values `json.loads` produces, as the encoders receive them: JSON
    integers become Python `int`, other JSON numbers `float` (held here as
    exact reals), objects `dict` and arrays `list`. */
module Json {

  datatype Value =
    | Null
    | Bool(b: bool)
    | Int(i: int)
    | Float(x: real)
    | Str(s: string)
    | Arr(items: seq<Value>)
    | Obj(fields: map<string, Value>)

  /** `d.get(key)`: the value stored under `key`, or `Null` (Python's `None`)
      when there is none. */
  function Get(d: map<string, Value>, key: string): (v: Value)
    ensures key !in d ==> v == Null
    ensures key in d ==> v == d[key]
  {
    if key in d then d[key] else Null
  }
}

=== FILE: midi.dfy ===
/** The MIDI event builder, `json_to_midi`: notes stably sorted by `start`,
    beats turned into ticks, and one track holding a tempo event, a time
    signature event, and a note-on / note-off pair per note. Each event's time
    is a delta-time: ticks since the previous event of the track, as in the
    MTrk chunk of the Standard MIDI File 1.0 specification. */
module Midi {
  import opened Results
  import opened PyNum
  import opened StableSort

  /** One entry of `midi_data['notes']`; a `None` field is a missing key. */
  datatype Note = Note(pitch: Option<int>, velocity: Option<int>,
                       start: Option<real>, duration: Option<real>)

  /** The parsed reply: `tempo` (beats per minute), `time_signature` and
      `notes`, each of which may be missing. */
  datatype MidiDoc = MidiDoc(tempo: Option<real>, timeSignature: Option<seq<int>>,
                             notes: Option<seq<Note>>)

  /** The track's messages. The two meta events carry delta-time 0. */
  datatype Event =
    | SetTempo(bpm: real)
    | TimeSignature(numerator: int, denominator: int)
    | NoteOn(note: int, velocity: int, delta: int)
    | NoteOff(note: int, velocity: int, delta: int)

  function Delta(e: Event): int {
    match e
    case SetTempo(_) => 0
    case TimeSignature(_, _) => 0
    case NoteOn(_, _, d) => d
    case NoteOff(_, _, d) => d
  }

  /** The exceptions the builder itself can raise (`IndexError`, `KeyError`). */
  datatype MidiError =
    | ShortTimeSignature
    | MissingNotes
    | MissingPitch(index: nat)
    | MissingVelocity(index: nat)

  const DefaultTempo: real := 120.0
  const DefaultTimeSignature: seq<int> := [4, 4]
  const DefaultStart: real := 0.0
  const DefaultDuration: real := 1.0

  /** `mido.MidiFile().ticks_per_beat`. */
  const MidoTicksPerBeat: nat := 480

  /** The sort key, `n.get('start', 0)`. */
  function StartBeat(n: Note): real {
    n.start.GetOr(DefaultStart)
  }

  function DurationBeats(n: Note): real {
    n.duration.GetOr(DefaultDuration)
  }

  /** `int(note.get('start', 0) * ticks_per_beat)`. */
  function StartTick(n: Note, tpb: nat): int {
    Trunc(StartBeat(n) * tpb as real)
  }

  /** `int(note.get('duration', 1) * ticks_per_beat)`. */
  function DurationTick(n: Note, tpb: nat): int {
    Trunc(DurationBeats(n) * tpb as real)
  }

  /** The start in ticks is the start in beats scaled and rounded toward
      zero, and exact for a start on a whole beat. */
  lemma StartTickOfBeats(n: Note, tpb: nat)
    ensures 0.0 <= StartBeat(n) ==> 0 <= StartTick(n, tpb) && StartTick(n, tpb) as real <= StartBeat(n) * tpb as real < StartTick(n, tpb) as real + 1.0
    ensures StartBeat(n) < 0.0 ==> StartTick(n, tpb) <= 0 && StartTick(n, tpb) as real - 1.0 < StartBeat(n) * tpb as real <= StartTick(n, tpb) as real
    ensures StartBeat(n) == StartBeat(n).Floor as real ==> StartTick(n, tpb) == StartBeat(n).Floor * tpb
  {
    WholeBeats(StartBeat(n), tpb);
  }

  /** The length in ticks is the length in beats scaled and rounded toward
      zero, and exact for a whole number of beats. */
  lemma DurationTickOfBeats(n: Note, tpb: nat)
    ensures 0.0 <= DurationBeats(n) ==> 0 <= DurationTick(n, tpb) && DurationTick(n, tpb) as real <= DurationBeats(n) * tpb as real < DurationTick(n, tpb) as real + 1.0
    ensures DurationBeats(n) < 0.0 ==> DurationTick(n, tpb) <= 0 && DurationTick(n, tpb) as real - 1.0 < DurationBeats(n) * tpb as real <= DurationTick(n, tpb) as real
    ensures DurationBeats(n) == DurationBeats(n).Floor as real ==> DurationTick(n, tpb) == DurationBeats(n).Floor * tpb
  {
    WholeBeats(DurationBeats(n), tpb);
  }

  /** A whole number of beats is a whole number of ticks, which truncation
      keeps. */
  lemma WholeBeats(x: real, tpb: nat)
    ensures 0.0 <= x ==> 0.0 <= x * tpb as real
    ensures x < 0.0 ==> x * tpb as real <= 0.0
    ensures x == x.Floor as real ==> Trunc(x * tpb as real) == x.Floor * tpb
  {
    if x == x.Floor as real {
      assert x * tpb as real == (x.Floor * tpb) as real;
    }
  }

  /** `sorted(midi_data['notes'], key=lambda n: n.get('start', 0))`. */
  function SortNotes(notes: seq<Note>): (r: seq<Note>)
    ensures |r| == |notes| && multiset(r) == multiset(notes)
    ensures forall i, j :: 0 <= i < j < |r| ==> StartBeat(r[i]) <= StartBeat(r[j])
  {
    SortBy(notes, StartBeat)
  }

  /** Notes that start together keep their input order. */
  lemma SortNotesStable(notes: seq<Note>, beat: real)
    ensures WithKey(SortNotes(notes), StartBeat, beat) == WithKey(notes, StartBeat, beat)
  {
    SortByKeepsTies(notes, StartBeat, beat);
  }

  /** Ticks are truncated, so they never run backwards when beats move forward. */
  lemma TicksFollowBeats(a: Note, b: Note, tpb: nat)
    requires StartBeat(a) <= StartBeat(b)
    ensures StartTick(a, tpb) <= StartTick(b, tpb)
  {
    var x := StartBeat(a) * tpb as real;
    var y := StartBeat(b) * tpb as real;
    TruncScaleMonotone(StartBeat(a), StartBeat(b), tpb as real);
    assert StartTick(a, tpb) == Trunc(x) && StartTick(b, tpb) == Trunc(y);
  }

  /** `last_tick` when the note at index `i` of the sorted list is reached:
      0 for the first, otherwise where the previous note ends. */
  function LastTick(ns: seq<Note>, tpb: nat, i: nat): int
    requires i <= |ns|
  {
    if i == 0 then 0 else StartTick(ns[i - 1], tpb) + DurationTick(ns[i - 1], tpb)
  }

  predicate Complete(n: Note) {
    n.pitch.Some? && n.velocity.Some?
  }

  /** The events for `ns[i..]` when `last_tick` is `last`, or the exception
      raised on the first note without a pitch or a velocity. */
  function NoteEvents(ns: seq<Note>, tpb: nat, i: nat, last: int): (r: Result<seq<Event>, MidiError>)
    requires i <= |ns|
    ensures r.Ok? ==> |r.value| == 2 * (|ns| - i)
    ensures r.Err? ==> && (r.error.MissingPitch? || r.error.MissingVelocity?)
                       && i <= r.error.index < |ns|
                       && (r.error.MissingPitch? <==> ns[r.error.index].pitch.None?)
                       && !Complete(ns[r.error.index])
                       && (forall j :: i <= j < r.error.index ==> Complete(ns[j]))
    decreases |ns| - i
  {
    if i == |ns| then Ok([])
    else
      var n := ns[i];
      if n.pitch.None? then Err(MissingPitch(i))
      else if n.velocity.None? then Err(MissingVelocity(i))
      else
        var st := StartTick(n, tpb);
        var dt := DurationTick(n, tpb);
        match NoteEvents(ns, tpb, i + 1, st + dt)
        case Err(e) => Err(e)
        case Ok(rest) =>
          Ok([NoteOn(n.pitch.value, n.velocity.value, Max(0, st - last)),
              NoteOff(n.pitch.value, 0, dt)] + rest)
  }

  /** The note-on written for note `j` of the sorted list `ns`. */
  function NoteOnOf(ns: seq<Note>, tpb: nat, j: nat): Event
    requires j < |ns| && Complete(ns[j])
  {
    NoteOn(ns[j].pitch.value, ns[j].velocity.value,
           Max(0, StartTick(ns[j], tpb) - LastTick(ns, tpb, j)))
  }

  /** The note-off written for note `j` of the sorted list `ns`. */
  function NoteOffOf(ns: seq<Note>, tpb: nat, j: nat): Event
    requires j < |ns| && Complete(ns[j])
  {
    NoteOff(ns[j].pitch.value, 0, DurationTick(ns[j], tpb))
  }

  /** What the events of note `i` are, stated without the fold: the note-on
      comes `max(0, start_tick - last_tick)` after the previous event and the
      note-off, with velocity 0, `duration_tick` after it. */
  lemma {:induction false} NoteEventsShape(ns: seq<Note>, tpb: nat, i: nat)
    requires i <= |ns|
    ensures var r := NoteEvents(ns, tpb, i, LastTick(ns, tpb, i));
            r.Ok? <==> forall j :: i <= j < |ns| ==> Complete(ns[j])
    ensures var r := NoteEvents(ns, tpb, i, LastTick(ns, tpb, i));
            r.Ok? ==> (&& |r.value| == 2 * (|ns| - i)
                       && forall j :: i <= j < |ns| ==>
                            && r.value[2 * (j - i)] == NoteOnOf(ns, tpb, j)
                            && r.value[2 * (j - i) + 1] == NoteOffOf(ns, tpb, j))
    decreases |ns| - i
  {
    if i < |ns| {
      NoteEventsShape(ns, tpb, i + 1);
      var n := ns[i];
      if Complete(n) {
        assert LastTick(ns, tpb, i + 1) == StartTick(n, tpb) + DurationTick(n, tpb);
        var r := NoteEvents(ns, tpb, i, LastTick(ns, tpb, i));
        var rest := NoteEvents(ns, tpb, i + 1, LastTick(ns, tpb, i + 1));
        if rest.Ok? {
          assert r.value[2..] == rest.value;
        }
      }
    }
  }

  /** The note events keep their places behind the two meta events. */
  lemma BehindMeta(meta: seq<Event>, evs: seq<Event>, ns: seq<Note>, tpb: nat)
    requires |meta| == 2 && |evs| == 2 * |ns|
    requires forall j :: 0 <= j < |ns| ==> Complete(ns[j])
    requires forall j :: 0 <= j < |ns| ==>
               evs[2 * j] == NoteOnOf(ns, tpb, j) && evs[2 * j + 1] == NoteOffOf(ns, tpb, j)
    ensures forall j :: 0 <= j < |ns| ==>
              (meta + evs)[2 + 2 * j] == NoteOnOf(ns, tpb, j)
              && (meta + evs)[3 + 2 * j] == NoteOffOf(ns, tpb, j)
  {
    forall j | 0 <= j < |ns|
      ensures (meta + evs)[2 + 2 * j] == NoteOnOf(ns, tpb, j)
      ensures (meta + evs)[3 + 2 * j] == NoteOffOf(ns, tpb, j)
    {
      assert (meta + evs)[2 + 2 * j] == evs[2 * j];
      assert (meta + evs)[3 + 2 * j] == evs[2 * j + 1];
    }
  }

  /** Every note has the keys the builder reads, and the time signature has
      the two entries it indexes. */
  predicate WellFormed(doc: MidiDoc) {
    && |doc.timeSignature.GetOr(DefaultTimeSignature)| >= 2
    && doc.notes.Some?
    && forall j :: 0 <= j < |doc.notes.value| ==> Complete(doc.notes.value[j])
  }

  /** A property of every note survives the sort. */
  lemma SortKeepsComplete(notes: seq<Note>)
    ensures (forall j :: 0 <= j < |notes| ==> Complete(notes[j]))
        <==> (forall j :: 0 <= j < |SortNotes(notes)| ==> Complete(SortNotes(notes)[j]))
  {
    var s := SortNotes(notes);
    forall j | 0 <= j < |s|
      ensures s[j] in notes
    {
      assert s[j] in multiset(s);
    }
    forall j | 0 <= j < |notes|
      ensures notes[j] in s
    {
      assert notes[j] in multiset(notes);
    }
  }

  /** The track `json_to_midi` appends to, before `mido` checks and saves it:
      the tempo and time signature events, then a note-on and a note-off for
      each note in start order. */
  function BuildTrack(doc: MidiDoc, tpb: nat): (r: Result<seq<Event>, MidiError>)
    ensures r.Ok? <==> WellFormed(doc)
    ensures r.Ok? ==> |r.value| == 2 + 2 * |doc.notes.value|
    ensures r.Ok? ==> forall j :: 0 <= j < |SortNotes(doc.notes.value)| ==>
                        Complete(SortNotes(doc.notes.value)[j])
    ensures r.Ok? ==> r.value[0] == SetTempo(doc.tempo.GetOr(DefaultTempo))
    ensures r.Ok? ==> var ts := doc.timeSignature.GetOr(DefaultTimeSignature);
                      r.value[1] == TimeSignature(ts[0], ts[1])
  {
    var ts := doc.timeSignature.GetOr(DefaultTimeSignature);
    if |ts| < 2 then Err(ShortTimeSignature)
    else if doc.notes.None? then Err(MissingNotes)
    else
      var ns := SortNotes(doc.notes.value);
      NoteEventsShape(ns, tpb, 0);
      SortKeepsComplete(doc.notes.value);
      match NoteEvents(ns, tpb, 0, 0)
      case Err(e) => Err(e)
      case Ok(evs) =>
        Ok([SetTempo(doc.tempo.GetOr(DefaultTempo)), TimeSignature(ts[0], ts[1])] + evs)
  }

  /** Note `j` in start order gets events `2 + 2j` (note-on) and `3 + 2j`
      (note-off) of the track. */
  lemma BuildTrackNotes(doc: MidiDoc, tpb: nat)
    requires BuildTrack(doc, tpb).Ok?
    ensures var r := BuildTrack(doc, tpb).value;
            var ns := SortNotes(doc.notes.value);
            forall j :: 0 <= j < |ns| ==>
              r[2 + 2 * j] == NoteOnOf(ns, tpb, j) && r[3 + 2 * j] == NoteOffOf(ns, tpb, j)
  {
    var ns := SortNotes(doc.notes.value);
    var ts := doc.timeSignature.GetOr(DefaultTimeSignature);
    NoteEventsShape(ns, tpb, 0);
    SortKeepsComplete(doc.notes.value);
    var evs := NoteEvents(ns, tpb, 0, 0).value;
    var meta := [SetTempo(doc.tempo.GetOr(DefaultTempo)), TimeSignature(ts[0], ts[1])];
    assert BuildTrack(doc, tpb).value == meta + evs;
    BehindMeta(meta, evs, ns, tpb);
  }

  /** `json_to_midi(midi_data, output_path)`: `True` when the track was built
      and `mido` accepted it (tempo conversion, message range checks, writing
      the file); any exception is caught and turned into `False`. */
  function JsonToMidi(doc: MidiDoc, midoAccepts: seq<Event> -> bool): (ok: bool)
    ensures ok ==> WellFormed(doc)
    ensures WellFormed(doc) ==> (ok <==> midoAccepts(BuildTrack(doc, MidoTicksPerBeat).value))
  {
    match BuildTrack(doc, MidoTicksPerBeat)
    case Err(_) => false
    case Ok(track) => midoAccepts(track)
  }

  /** The absolute tick after the events `evs`: the sum of their delta-times. */
  function Elapsed(evs: seq<Event>): int {
    if evs == [] then 0 else Elapsed(evs[..|evs| - 1]) + Delta(evs[|evs| - 1])
  }

  /** The absolute tick at which event `k` of a track happens. */
  function TickOf(evs: seq<Event>, k: nat): int
    requires k < |evs|
  {
    Elapsed(evs[..k + 1])
  }

  lemma TickOfStep(evs: seq<Event>, k: nat)
    requires 0 < k < |evs|
    ensures TickOf(evs, k) == TickOf(evs, k - 1) + Delta(evs[k])
  {
    assert evs[..k + 1][..k] == evs[..k];
  }

  /** The track layout `BuildTrack` produces for the sorted notes `ns`. */
  predicate TrackShape(r: seq<Event>, ns: seq<Note>, tpb: nat) {
    && |r| == 2 + 2 * |ns|
    && Delta(r[0]) == 0 && Delta(r[1]) == 0
    && (forall j :: 0 <= j < |ns| ==> Complete(ns[j]))
    && (forall j :: 0 <= j < |ns| ==>
          r[2 + 2 * j] == NoteOnOf(ns, tpb, j) && r[3 + 2 * j] == NoteOffOf(ns, tpb, j))
  }

  /** No note starts before the previous one (in start order) has ended, and
      the first does not start before tick 0. */
  predicate NoOverlapUpTo(ns: seq<Note>, tpb: nat, j: nat)
    requires j <= |ns|
  {
    forall i :: 0 <= i < j ==> LastTick(ns, tpb, i) <= StartTick(ns[i], tpb)
  }

  lemma {:induction false} NoteOnTickFrom(r: seq<Event>, ns: seq<Note>, tpb: nat, j: nat)
    requires TrackShape(r, ns, tpb) && j < |ns|
    ensures TickOf(r, 3 + 2 * j) == TickOf(r, 2 + 2 * j) + DurationTick(ns[j], tpb)
    ensures TickOf(r, 2 + 2 * j) >= StartTick(ns[j], tpb)
    ensures TickOf(r, 2 + 2 * j) >= LastTick(ns, tpb, j)
    ensures NoOverlapUpTo(ns, tpb, j + 1) ==> TickOf(r, 2 + 2 * j) == StartTick(ns[j], tpb)
  {
    TickOfStep(r, 2 + 2 * j);
    TickOfStep(r, 3 + 2 * j);
    assert r[2 + 2 * j] == NoteOnOf(ns, tpb, j);
    assert r[3 + 2 * j] == NoteOffOf(ns, tpb, j);
    if j == 0 {
      TickOfStep(r, 1);
      assert TickOf(r, 0) == 0 by {
        var p := r[..1];
        assert p[..|p| - 1] == [];
        assert Elapsed(p) == Elapsed(p[..|p| - 1]) + Delta(p[0]);
      }
    } else {
      NoteOnTickFrom(r, ns, tpb, j - 1);
      assert 1 + 2 * j == 3 + 2 * (j - 1);
    }
  }

  /** Where the note-ons land. Every note-on happens at or after its note's
      start tick: a note that begins before the previous one ends is pushed
      back to that end. When no note overlaps the previous one, every note-on
      happens exactly at its start tick, and every note-off `duration_tick`
      later. */
  lemma NoteOnTicks(doc: MidiDoc, tpb: nat)
    requires BuildTrack(doc, tpb).Ok?
    ensures var r := BuildTrack(doc, tpb).value;
            var ns := SortNotes(doc.notes.value);
            forall j :: 0 <= j < |ns| ==>
              && TickOf(r, 2 + 2 * j) >= StartTick(ns[j], tpb)
              && TickOf(r, 3 + 2 * j) == TickOf(r, 2 + 2 * j) + DurationTick(ns[j], tpb)
    ensures var r := BuildTrack(doc, tpb).value;
            var ns := SortNotes(doc.notes.value);
            NoOverlapUpTo(ns, tpb, |ns|) ==>
              forall j :: 0 <= j < |ns| ==> TickOf(r, 2 + 2 * j) == StartTick(ns[j], tpb)
  {
    var r := BuildTrack(doc, tpb).value;
    var ns := SortNotes(doc.notes.value);
    BuildTrackNotes(doc, tpb);
    assert TrackShape(r, ns, tpb);
    forall j | 0 <= j < |ns|
      ensures TickOf(r, 2 + 2 * j) >= StartTick(ns[j], tpb)
      ensures TickOf(r, 3 + 2 * j) == TickOf(r, 2 + 2 * j) + DurationTick(ns[j], tpb)
      ensures NoOverlapUpTo(ns, tpb, |ns|) ==> TickOf(r, 2 + 2 * j) == StartTick(ns[j], tpb)
    {
      NoteOnTickFrom(r, ns, tpb, j);
    }
  }

  /** Delta-times are never negative for note-ons; a note-off's is the
      note's duration in ticks. */
  lemma NoteDeltas(doc: MidiDoc, tpb: nat)
    requires BuildTrack(doc, tpb).Ok?
    ensures var r := BuildTrack(doc, tpb).value;
            var ns := SortNotes(doc.notes.value);
            forall j :: 0 <= j < |ns| ==>
              && r[2 + 2 * j].NoteOn? && r[2 + 2 * j].delta >= 0
              && r[3 + 2 * j].NoteOff? && r[3 + 2 * j].delta == DurationTick(ns[j], tpb)
              && r[3 + 2 * j].note == r[2 + 2 * j].note && r[3 + 2 * j].velocity == 0
  {
    BuildTrackNotes(doc, tpb);
    var r := BuildTrack(doc, tpb).value;
    var ns := SortNotes(doc.notes.value);
    forall j | 0 <= j < |ns|
      ensures r[2 + 2 * j].NoteOn? && r[2 + 2 * j].delta >= 0
      ensures r[3 + 2 * j].NoteOff? && r[3 + 2 * j].delta == DurationTick(ns[j], tpb)
      ensures r[3 + 2 * j].note == r[2 + 2 * j].note && r[3 + 2 * j].velocity == 0
    {
      assert r[2 + 2 * j] == NoteOnOf(ns, tpb, j);
      assert r[3 + 2 * j] == NoteOffOf(ns, tpb, j);
    }
  }

  /** Two notes that start together are already in sorted order. */
  lemma ChordSorted(notes: seq<Note>)
    requires notes == [Note(Some(60), Some(100), Some(0.0), Some(1.0)),
                       Note(Some(64), Some(100), Some(0.0), Some(1.0))]
    ensures SortNotes(notes) == notes
  {
    var ns := SortNotes(notes);
    assert ns == notes;
  }

  /** Two notes struck together (a chord): both start at beat 0 and last one
      beat. The second note-on is written with delta-time 0 after the first
      note-off, so it sounds at tick 480, one beat after its start tick 0. */
  lemma ChordNoteOnDelayed(doc: MidiDoc)
    requires doc == MidiDoc(None, None, Some([Note(Some(60), Some(100), Some(0.0), Some(1.0)),
                                              Note(Some(64), Some(100), Some(0.0), Some(1.0))]))
    ensures BuildTrack(doc, MidoTicksPerBeat).Ok?
    ensures var r := BuildTrack(doc, MidoTicksPerBeat).value;
            var second := doc.notes.value[1];
            && r[4] == NoteOn(64, 100, 0)
            && StartTick(second, MidoTicksPerBeat) == 0
            && TickOf(r, 4) == 480
  {
    var notes := doc.notes.value;
    var ns := SortNotes(notes);
    ChordSorted(notes);
    var r := BuildTrack(doc, MidoTicksPerBeat).value;
    BuildTrackNotes(doc, MidoTicksPerBeat);
    assert TrackShape(r, ns, MidoTicksPerBeat);
    NoteOnTickFrom(r, ns, MidoTicksPerBeat, 0);
    TickOfStep(r, 4);
  }
}


=== FILE: midi_timeline.dfy ===
/** The note events of `json_to_midi` as the builder intends them: every
    note-on at its note's start tick and every note-off at its end tick, with
    overlapping notes (chords, held notes) kept overlapping. Each event is
    first placed on an absolute time line, the time line is stably sorted by
    tick, and only then are delta-times taken between neighbours. The error
    behaviour and the two meta events are those of `Midi.BuildTrack`. */
module MidiTimeline {
  import opened Results
  import opened PyNum
  import opened StableSort
  import opened Midi

  /** A note event at an absolute tick; `on` tells a note-on from a note-off. */
  datatype Timed = Timed(tick: int, on: bool, note: int, velocity: int)

  function TickKey(t: Timed): real {
    t.tick as real
  }

  /** The note-on of `n`, at its start tick. */
  function OnAt(n: Note, tpb: nat): Timed
    requires Complete(n)
  {
    Timed(StartTick(n, tpb), true, n.pitch.value, n.velocity.value)
  }

  /** The note-off of `n`, with velocity 0, at its start tick plus its length. */
  function OffAt(n: Note, tpb: nat): Timed
    requires Complete(n)
  {
    Timed(StartTick(n, tpb) + DurationTick(n, tpb), false, n.pitch.value, 0)
  }

  /** Each note's two events, in the order of `ns`. */
  function Placed(ns: seq<Note>, tpb: nat): (r: seq<Timed>)
    requires forall j :: 0 <= j < |ns| ==> Complete(ns[j])
    ensures |r| == 2 * |ns|
  {
    if ns == [] then []
    else
      assert forall j :: 0 <= j < |ns[1..]| ==> ns[1..][j] == ns[j + 1];
      [OnAt(ns[0], tpb), OffAt(ns[0], tpb)] + Placed(ns[1..], tpb)
  }

  /** Note `j`'s note-on and note-off are entries `2j` and `2j + 1`. */
  lemma {:induction false} PlacedAt(ns: seq<Note>, tpb: nat, j: nat)
    requires forall i :: 0 <= i < |ns| ==> Complete(ns[i])
    requires j < |ns|
    ensures Placed(ns, tpb)[2 * j] == OnAt(ns[j], tpb)
    ensures Placed(ns, tpb)[2 * j + 1] == OffAt(ns[j], tpb)
  {
    var tail := ns[1..];
    assert forall i :: 0 <= i < |tail| ==> tail[i] == ns[i + 1];
    if j > 0 {
      PlacedAt(tail, tpb, j - 1);
      assert Placed(ns, tpb)[2..] == Placed(tail, tpb);
    }
  }

  /** All events of `ns` in time order; events at the same tick keep the
      order of `Placed`, so a note-on comes before a note-off of the same
      note at the same tick. */
  function Timeline(ns: seq<Note>, tpb: nat): (r: seq<Timed>)
    requires forall j :: 0 <= j < |ns| ==> Complete(ns[j])
    ensures |r| == 2 * |ns| && SortedBy(r, TickKey)
    ensures multiset(r) == multiset(Placed(ns, tpb))
  {
    SortBy(Placed(ns, tpb), TickKey)
  }

  /** The MIDI message for `t` when the previous event happened at `prev`. */
  function Emit(t: Timed, prev: int): Event {
    if t.on then NoteOn(t.note, t.velocity, Max(0, t.tick - prev))
    else NoteOff(t.note, t.velocity, Max(0, t.tick - prev))
  }

  /** The tick of the event before entry `k` of the time line; the track's
      notes start counting at tick 0. */
  function PrevTick(tl: seq<Timed>, k: nat): int
    requires k < |tl|
  {
    if k == 0 then 0 else tl[k - 1].tick
  }

  /** Delta-times between neighbours of the time line. */
  function Encode(tl: seq<Timed>): (r: seq<Event>)
    ensures |r| == |tl|
    ensures forall k :: 0 <= k < |r| ==> Delta(r[k]) >= 0
  {
    seq(|tl|, k requires 0 <= k < |tl| => Emit(tl[k], PrevTick(tl, k)))
  }

  /** The corrected track: the meta events of `BuildTrack`, then the
      delta-encoded time line. It fails exactly when `BuildTrack` does. */
  function BuildTimedTrack(doc: MidiDoc, tpb: nat): (r: Result<seq<Event>, MidiError>)
    ensures r.Ok? <==> WellFormed(doc)
    ensures r.Err? ==> r == BuildTrack(doc, tpb)
    ensures r.Ok? ==> |r.value| == 2 + 2 * |doc.notes.value|
    ensures r.Ok? ==> r.value[..2] == BuildTrack(doc, tpb).value[..2]
    ensures r.Ok? ==> forall k :: 0 <= k < |r.value| ==> Delta(r.value[k]) >= 0
  {
    var built := BuildTrack(doc, tpb);
    if built.Err? then built
    else
      var track := built.value;
      var ns := SortNotes(doc.notes.value);
      var evs := Encode(Timeline(ns, tpb));
      var r := track[..2] + evs;
      assert r[..2] == track[..2];
      assert Delta(track[0]) == 0 && Delta(track[1]) == 0;
      assert forall k :: 2 <= k < |r| ==> r[k] == evs[k - 2];
      Ok(r)
  }

  /** A note neither starts nor ends before tick 0. */
  predicate NonNegativeNote(n: Note, tpb: nat) {
    0 <= StartTick(n, tpb) && 0 <= StartTick(n, tpb) + DurationTick(n, tpb)
  }

  predicate NonNegative(ns: seq<Note>, tpb: nat) {
    forall j :: 0 <= j < |ns| ==> NonNegativeNote(ns[j], tpb)
  }

  /** The first two events happen at tick 0. */
  lemma MetaTicks(r: seq<Event>)
    requires |r| >= 2 && Delta(r[0]) == 0 && Delta(r[1]) == 0
    ensures TickOf(r, 0) == 0 && TickOf(r, 1) == 0
  {
    var p := r[..1];
    assert p[..|p| - 1] == [];
    assert Elapsed(p) == Elapsed(p[..|p| - 1]) + Delta(p[0]);
    TickOfStep(r, 1);
  }

  /** Ticks that start at or after 0 and never run backwards. */
  predicate Rising(tl: seq<Timed>) {
    && (tl == [] || tl[0].tick >= 0)
    && forall i, j :: 0 <= i < j < |tl| ==> tl[i].tick <= tl[j].tick
  }

  lemma SortedRising(tl: seq<Timed>)
    requires SortedBy(tl, TickKey) && (tl == [] || tl[0].tick >= 0)
    ensures Rising(tl)
  {
    forall i, j | 0 <= i < j < |tl|
      ensures tl[i].tick <= tl[j].tick
    {
      assert TickKey(tl[i]) <= TickKey(tl[j]);
    }
  }

  /** `r` is two events at tick 0 followed by the messages for `tl`. */
  predicate Encodes(r: seq<Event>, tl: seq<Timed>) {
    && |r| == 2 + |tl|
    && Delta(r[0]) == 0 && Delta(r[1]) == 0
    && forall k {:trigger PrevTick(tl, k)} :: 0 <= k < |tl| ==> Delta(r[2 + k]) == Max(0, tl[k].tick - PrevTick(tl, k))
  }

  lemma MetaEncodes(meta: seq<Event>, tl: seq<Timed>)
    requires |meta| == 2 && Delta(meta[0]) == 0 && Delta(meta[1]) == 0
    ensures Encodes(meta + Encode(tl), tl)
  {
    var r := meta + Encode(tl);
    forall k | 0 <= k < |tl|
      ensures Delta(r[2 + k]) == Max(0, tl[k].tick - PrevTick(tl, k))
    {
      assert r[2 + k] == Encode(tl)[k];
      EncodeAt(tl, k);
      EmitDelta(tl[k], PrevTick(tl, k));
    }
  }

  /** Entry `k` of the encoding is the message for the `k`-th time-line
      entry, timed from the one before it. */
  lemma EncodeAt(tl: seq<Timed>, k: nat)
    requires k < |tl|
    ensures Encode(tl)[k] == Emit(tl[k], PrevTick(tl, k))
  {
  }

  lemma EmitDelta(t: Timed, prev: int)
    ensures Delta(Emit(t, prev)) == Max(0, t.tick - prev)
  {
  }

  /** One event further along the time line: its delta-time covers exactly
      the gap from the previous event. */
  lemma EncodedTickStep(r: seq<Event>, tl: seq<Timed>, k: nat)
    requires Encodes(r, tl) && Rising(tl) && k < |tl|
    requires TickOf(r, 1 + k) == PrevTick(tl, k)
    ensures TickOf(r, 2 + k) == tl[k].tick
  {
    if k > 0 {
      assert tl[k - 1].tick <= tl[k].tick;
    }
    assert Delta(r[2 + k]) == tl[k].tick - PrevTick(tl, k);
    TickOfStep(r, 2 + k);
  }

  /** Summing the delta-times of a rising time line gives back every event's
      own tick. */
  lemma {:induction false} EncodedTicks(r: seq<Event>, tl: seq<Timed>, k: nat)
    requires Encodes(r, tl) && Rising(tl) && k < |tl|
    ensures TickOf(r, 2 + k) == tl[k].tick
  {
    if k == 0 {
      MetaTicks(r);
    } else {
      EncodedTicks(r, tl, k - 1);
    }
    EncodedTickStep(r, tl, k);
  }

  /** Each element of the sorted notes is one of the document's notes. */
  lemma SortedNoteIn(notes: seq<Note>, j: nat)
    requires j < |SortNotes(notes)|
    ensures SortNotes(notes)[j] in notes
  {
    assert SortNotes(notes)[j] in multiset(SortNotes(notes));
  }

  lemma SortedNonNegative(notes: seq<Note>, tpb: nat)
    requires NonNegative(notes, tpb)
    ensures NonNegative(SortNotes(notes), tpb)
  {
    forall j | 0 <= j < |SortNotes(notes)|
      ensures NonNegativeNote(SortNotes(notes)[j], tpb)
    {
      SortedNoteIn(notes, j);
    }
  }

  /** Every entry of the time line is one of `Placed`'s entries. */
  lemma TimelineFrom(ns: seq<Note>, tpb: nat, k: nat)
    requires forall j :: 0 <= j < |ns| ==> Complete(ns[j])
    requires k < |Timeline(ns, tpb)|
    ensures exists i :: 0 <= i < |Placed(ns, tpb)| && Placed(ns, tpb)[i] == Timeline(ns, tpb)[k]
  {
    assert Timeline(ns, tpb)[k] in multiset(Placed(ns, tpb));
  }

  /** A time line of notes that start and end at or after tick 0 has no
      negative tick. */
  lemma TimelineNonNegative(ns: seq<Note>, tpb: nat, k: nat)
    requires forall j :: 0 <= j < |ns| ==> Complete(ns[j])
    requires NonNegative(ns, tpb) && k < |Timeline(ns, tpb)|
    ensures Timeline(ns, tpb)[k].tick >= 0
  {
    var placed := Placed(ns, tpb);
    TimelineFrom(ns, tpb, k);
    var i :| 0 <= i < |placed| && placed[i] == Timeline(ns, tpb)[k];
    var j := i / 2;
    assert i == 2 * j || i == 2 * j + 1;
    PlacedAt(ns, tpb, j);
    assert NonNegativeNote(ns[j], tpb);
  }

  /** With no negative tick, the corrected track plays each event of the time
      line at its own tick, and the time line holds exactly each note's
      note-on at its start tick and note-off at its end tick. */
  lemma TimedTrackTicks(doc: MidiDoc, tpb: nat)
    requires BuildTimedTrack(doc, tpb).Ok? && NonNegative(doc.notes.value, tpb)
    ensures var ns := SortNotes(doc.notes.value);
            && (forall j :: 0 <= j < |ns| ==> Complete(ns[j]))
            && var tl := Timeline(ns, tpb);
               var r := BuildTimedTrack(doc, tpb).value;
               && multiset(tl) == multiset(Placed(ns, tpb))
               && forall k :: 0 <= k < |tl| ==> TickOf(r, 2 + k) == tl[k].tick
  {
    var ns := SortNotes(doc.notes.value);
    SortKeepsComplete(doc.notes.value);
    SortedNonNegative(doc.notes.value, tpb);
    var tl := Timeline(ns, tpb);
    var r := BuildTimedTrack(doc, tpb).value;
    var meta := BuildTrack(doc, tpb).value[..2];
    assert r == meta + Encode(tl);
    if tl != [] {
      TimelineNonNegative(ns, tpb, 0);
    }
    SortedRising(tl);
    MetaEncodes(meta, tl);
    forall k | 0 <= k < |tl|
      ensures TickOf(r, 2 + k) == tl[k].tick
    {
      EncodedTicks(r, tl, k);
    }
  }

  /** Event `k` of track `r` is the message for `t` and happens at `t`'s tick. */
  predicate Plays(r: seq<Event>, k: int, t: Timed) {
    && 2 <= k < |r|
    && TickOf(r, k) == t.tick
    && r[k] == (if t.on then NoteOn(t.note, t.velocity, Delta(r[k]))
                else NoteOff(t.note, t.velocity, Delta(r[k])))
  }

  /** Event `2 + a` of the corrected track is entry `a` of the time line,
      played at that entry's tick. */
  lemma TimedTrackAt(doc: MidiDoc, tpb: nat, a: nat)
    requires BuildTimedTrack(doc, tpb).Ok? && NonNegative(doc.notes.value, tpb)
    requires a < 2 * |doc.notes.value|
    ensures BuildTrack(doc, tpb).Ok?
    ensures var tl := Timeline(SortNotes(doc.notes.value), tpb);
            var r := BuildTimedTrack(doc, tpb).value;
            && 2 + a < |r|
            && r[2 + a] == Emit(tl[a], PrevTick(tl, a))
            && TickOf(r, 2 + a) == tl[a].tick
  {
    var ns := SortNotes(doc.notes.value);
    var tl := Timeline(ns, tpb);
    var r := BuildTimedTrack(doc, tpb).value;
    var meta := BuildTrack(doc, tpb).value[..2];
    assert r == meta + Encode(tl);
    assert r[2 + a] == Encode(tl)[a];
    EncodeAt(tl, a);
    TimedTrackTicks(doc, tpb);
  }

  /** The corrected track plays the time line: event `2 + a` is entry `a`'s
      message, at entry `a`'s tick. */
  predicate PlaysTimeline(r: seq<Event>, tl: seq<Timed>) {
    && |r| == 2 + |tl|
    && forall a :: 0 <= a < |tl| ==> r[2 + a] == Emit(tl[a], PrevTick(tl, a)) && TickOf(r, 2 + a) == tl[a].tick
  }

  lemma TimedTrackPlays(doc: MidiDoc, tpb: nat)
    requires BuildTimedTrack(doc, tpb).Ok? && NonNegative(doc.notes.value, tpb)
    ensures BuildTrack(doc, tpb).Ok?
    ensures PlaysTimeline(BuildTimedTrack(doc, tpb).value, Timeline(SortNotes(doc.notes.value), tpb))
  {
    var tl := Timeline(SortNotes(doc.notes.value), tpb);
    forall a | 0 <= a < |tl|
      ensures BuildTimedTrack(doc, tpb).value[2 + a] == Emit(tl[a], PrevTick(tl, a))
      ensures TickOf(BuildTimedTrack(doc, tpb).value, 2 + a) == tl[a].tick
    {
      TimedTrackAt(doc, tpb, a);
    }
  }

  /** Every entry of a played time line is played at its tick. */
  lemma PlaysEntry(r: seq<Event>, tl: seq<Timed>, t: Timed)
    requires PlaysTimeline(r, tl) && t in tl
    ensures exists k :: Plays(r, k, t)
  {
    var a :| 0 <= a < |tl| && tl[a] == t;
    assert r[2 + a] == Emit(t, PrevTick(tl, a));
    assert Plays(r, 2 + a, t);
  }

  /** Note `j` (in start order) sounds from its start tick: the corrected
      track has its note-on there and its note-off at its end tick. */
  lemma NoteSoundsOnTime(doc: MidiDoc, tpb: nat, j: nat)
    requires BuildTimedTrack(doc, tpb).Ok? && NonNegative(doc.notes.value, tpb)
    requires j < |doc.notes.value|
    ensures var ns := SortNotes(doc.notes.value);
            var r := BuildTimedTrack(doc, tpb).value;
            && Complete(ns[j])
            && (exists k :: Plays(r, k, OnAt(ns[j], tpb)))
            && (exists k :: Plays(r, k, OffAt(ns[j], tpb)))
  {
    var ns := SortNotes(doc.notes.value);
    SortKeepsComplete(doc.notes.value);
    var placed := Placed(ns, tpb);
    var tl := Timeline(ns, tpb);
    var r := BuildTimedTrack(doc, tpb).value;
    PlacedAt(ns, tpb, j);
    assert placed[2 * j] in multiset(tl) && placed[2 * j + 1] in multiset(tl);
    TimedTrackPlays(doc, tpb);
    PlaysEntry(r, tl, OnAt(ns[j], tpb));
    PlaysEntry(r, tl, OffAt(ns[j], tpb));
  }

  /** The chord of `Midi.ChordNoteOnDelayed` comes out right: the second
      note's note-on sounds at tick 0, together with the first. */
  lemma ChordOnTime(doc: MidiDoc)
    requires doc == MidiDoc(None, None, Some([Note(Some(60), Some(100), Some(0.0), Some(1.0)),
                                              Note(Some(64), Some(100), Some(0.0), Some(1.0))]))
    ensures BuildTimedTrack(doc, MidoTicksPerBeat).Ok?
    ensures exists k :: Plays(BuildTimedTrack(doc, MidoTicksPerBeat).value, k, Timed(0, true, 64, 100))
  {
    var notes := doc.notes.value;
    assert SortNotes(notes) == notes;
    assert NonNegative(notes, MidoTicksPerBeat);
    NoteSoundsOnTime(doc, MidoTicksPerBeat, 1);
  }

  /** `json_to_midi` with the corrected track: `True` exactly when the
      document is well formed and `mido` accepts the track. */
  function JsonToMidiTimed(doc: MidiDoc, midoAccepts: seq<Event> -> bool): (ok: bool)
    ensures ok ==> WellFormed(doc)
    ensures WellFormed(doc) ==> (ok <==> midoAccepts(BuildTimedTrack(doc, MidoTicksPerBeat).value))
  {
    match BuildTimedTrack(doc, MidoTicksPerBeat)
    case Err(_) => false
    case Ok(track) => midoAccepts(track)
  }
}

=== FILE: pynum.dfy ===
/** Python's numeric conversions as the encoders use them, on exact numbers. */
module PyNum {

  /** `int(x)` of a Python number: truncation toward zero. */
  function Trunc(x: real): (r: int)
    ensures 0.0 <= x ==> 0 <= r && r as real <= x < r as real + 1.0
    ensures x < 0.0 ==> r <= 0 && r as real - 1.0 < x <= r as real
  {
    if 0.0 <= x then x.Floor else -((-x).Floor)
  }

  /** Truncation never runs backwards. */
  lemma TruncMonotone(x: real, y: real)
    requires x <= y
    ensures Trunc(x) <= Trunc(y)
  {
    if 0.0 <= x {
      assert x.Floor <= y.Floor;
    } else if y < 0.0 {
      assert (-y).Floor <= (-x).Floor;
    }
  }

  /** Scaling by a non-negative factor keeps the order. */
  lemma ScaleMonotone(a: real, b: real, c: real)
    requires a <= b && 0.0 <= c
    ensures a * c <= b * c
  {
    assert b * c - a * c == (b - a) * c;
  }

  /** Scaling by a non-negative factor and truncating keeps the order. */
  lemma TruncScaleMonotone(a: real, b: real, c: real)
    requires a <= b && 0.0 <= c
    ensures Trunc(a * c) <= Trunc(b * c)
  {
    var x, y := a * c, b * c;
    ScaleMonotone(a, b, c);
    assert x <= y;
    TruncMonotone(x, y);
  }

  /** `max(lo, min(hi, v))`. */
  function Clamp(v: int, lo: int, hi: int): (r: int)
    requires lo <= hi
    ensures lo <= r <= hi
    ensures lo <= v <= hi ==> r == v
    ensures v < lo ==> r == lo
    ensures hi < v ==> r == hi
  {
    if v < lo then lo else if hi < v then hi else v
  }

  function Max(a: int, b: int): (r: int)
    ensures a <= r && b <= r
    ensures r == a || r == b
  {
    if a < b then b else a
  }
}

=== FILE: pytext.dfy ===
/** The pieces of Python's `str` behaviour the encoders rely on: whitespace
    stripping, prefix/suffix/substring tests, lower-casing, and `int()` of a
    string in base ten. A Python `str` is a sequence of code points, which is
    what a Dafny `string` is. */
module PyText {
  import opened Results

  /** The characters `c.isspace()` accepts, which `str.strip()` removes: tab to
      carriage return, the information separators, space, next line, no-break
      space, and the Unicode space and line separators. */
  const Spaces: set<char> := {
    '\t', '\n', '\U{B}', '\U{C}', '\r', '\U{1C}', '\U{1D}', '\U{1E}', '\U{1F}', ' ',
    '\U{85}', '\U{A0}', '\U{1680}',
    '\U{2000}', '\U{2001}', '\U{2002}', '\U{2003}', '\U{2004}', '\U{2005}',
    '\U{2006}', '\U{2007}', '\U{2008}', '\U{2009}', '\U{200A}',
    '\U{2028}', '\U{2029}', '\U{202F}', '\U{205F}', '\U{3000}'
  }

  /** The information separators U+001C to U+001F. */
  const Separators: set<char> := {'\U{1C}', '\U{1D}', '\U{1E}', '\U{1F}'}

  /** The whitespace `int(str)` skips around the number. CPython hands the
      characters below U+007F to its number parser as they are, and that parser
      skips only tab, line feed, vertical tab, form feed, carriage return and
      space; every other whitespace character becomes a space first. What is
      left out of `isspace()` is the four separators. */
  const IntSpaces: set<char> := Spaces - Separators

  predicate StartsWith(s: string, p: string) {
    |p| <= |s| && s[..|p|] == p
  }

  predicate EndsWith(s: string, p: string) {
    |p| <= |s| && s[|s| - |p|..] == p
  }

  /** `p in s` for strings: `p` occurs at some position of `s`. */
  predicate Contains(s: string, p: string)
    decreases |s|
  {
    StartsWith(s, p) || (|s| > 0 && Contains(s[1..], p))
  }

  lemma {:induction false} ContainsAt(s: string, p: string, i: nat)
    requires i + |p| <= |s| && s[i..i + |p|] == p
    ensures Contains(s, p)
    decreases i
  {
    if i > 0 {
      assert s[1..][i - 1..i - 1 + |p|] == s[i..i + |p|];
      ContainsAt(s[1..], p, i - 1);
    }
  }

  /** A string in which `c` does not occur. */
  predicate Lacks(s: string, c: char) {
    forall i :: 0 <= i < |s| ==> s[i] != c
  }

  /** Leading whitespace removed: the longest suffix of `s` that does not start
      with a character of `ws`. Here and below, `ws` is the set of characters
      that count as whitespace: `Spaces` for `str.strip()`, `IntSpaces` for
      `int()`. */
  function StripLeft(s: string, ws: set<char>): (r: string)
    ensures |r| <= |s| && r == s[|s| - |r|..]
    ensures forall k :: 0 <= k < |s| - |r| ==> s[k] in ws
    ensures r == [] || r[0] !in ws
  {
    if |s| > 0 && s[0] in ws then StripLeft(s[1..], ws) else s
  }

  /** Trailing whitespace removed: the longest prefix of `s` that does not end
      with a character of `ws`. */
  function StripRight(s: string, ws: set<char>): (r: string)
    ensures |r| <= |s| && r == s[..|r|]
    ensures forall k :: |r| <= k < |s| ==> s[k] in ws
    ensures r == [] || r[|r| - 1] !in ws
  {
    if |s| > 0 && s[|s| - 1] in ws then StripRight(s[..|s| - 1], ws) else s
  }

  /** Neither end of `s` is whitespace. */
  predicate Trimmed(s: string, ws: set<char>) {
    s == [] || (s[0] !in ws && s[|s| - 1] !in ws)
  }

  /** `r` is the piece of `s` starting at `i`, with only whitespace around it. */
  predicate Framed(s: string, r: string, i: nat, ws: set<char>) {
    && i + |r| <= |s|
    && r == s[i..i + |r|]
    && (forall k :: 0 <= k < i ==> s[k] in ws)
    && (forall k :: i + |r| <= k < |s| ==> s[k] in ws)
  }

  /** `s` with the characters of `ws` removed from both ends: the piece of
      `s` after its leading run of `ws`, with only characters of `ws` after
      it, and which neither starts nor ends with one. */
  function StripBy(s: string, ws: set<char>): (r: string)
    ensures var l := StripLeft(s, ws); Framed(s, r, |s| - |l|, ws)
    ensures Trimmed(r, ws)
  {
    var l := StripLeft(s, ws);
    StripBoth(s, ws);
    StripRight(l, ws)
  }

  /** `s.strip()`. */
  function Strip(s: string): string {
    StripBy(s, Spaces)
  }

  lemma StripBoth(s: string, ws: set<char>)
    ensures var l := StripLeft(s, ws);
            Framed(s, StripRight(l, ws), |s| - |l|, ws) && Trimmed(StripRight(l, ws), ws)
  {
    StripBothFramed(s, ws);
    StripBothTrimmed(s, ws);
  }

  lemma StripBothFramed(s: string, ws: set<char>)
    ensures var l := StripLeft(s, ws);
            Framed(s, StripRight(l, ws), |s| - |l|, ws)
  {
    var l := StripLeft(s, ws);
    StripFramed(s, l, StripRight(l, ws), |s| - |l|, ws);
  }

  lemma StripBothTrimmed(s: string, ws: set<char>)
    ensures Trimmed(StripRight(StripLeft(s, ws), ws), ws)
  {
    var l := StripLeft(s, ws);
    TrimmedEnds(l, StripRight(l, ws), ws);
  }

  /** Cutting the back off a text that does not start with whitespace, up to
      a character that is not whitespace, leaves neither end whitespace. */
  lemma TrimmedEnds(l: string, r: string, ws: set<char>)
    requires l == [] || l[0] !in ws
    requires |r| <= |l| && r == l[..|r|]
    requires r == [] || r[|r| - 1] !in ws
    ensures Trimmed(r, ws)
  {
    if r != [] {
      assert r[0] == l[0];
    }
  }

  /** Trimming the front and then the back of `s` frames what is left. */
  lemma StripFramed(s: string, l: string, r: string, i: nat, ws: set<char>)
    requires i + |l| == |s| && l == s[i..] && |r| <= |l| && r == l[..|r|]
    requires forall k :: 0 <= k < i ==> s[k] in ws
    requires forall k :: |r| <= k < |l| ==> l[k] in ws
    ensures Framed(s, r, i, ws)
  {
    assert r == s[i..i + |r|];
    forall k | i + |r| <= k < |s|
      ensures s[k] in ws
    {
      assert s[k] == l[k - i];
    }
  }

  /** The strip is the only piece of `s` with only whitespace around it that
      neither starts nor ends with whitespace. */
  lemma StripUnique(s: string, r: string, i: nat, ws: set<char>)
    requires Framed(s, r, i, ws) && Trimmed(r, ws)
    ensures StripBy(s, ws) == r
  {
    var q := StripBy(s, ws);
    var j := |s| - |StripLeft(s, ws)|;
    if r != [] && q != [] {
      FramesStart(s, r, i, q, j, ws);
      FramesEnd(s, r, i, q, j, ws);
    }
  }

  /** Two trimmed, non-empty pieces of `s` framed by whitespace start at the
      same place. */
  lemma FramesStart(s: string, r: string, i: nat, q: string, j: nat, ws: set<char>)
    requires Framed(s, r, i, ws) && Trimmed(r, ws) && r != []
    requires Framed(s, q, j, ws) && Trimmed(q, ws) && q != []
    ensures i == j
  {
    assert r[0] == s[i] && q[0] == s[j];
  }

  /** ... and end at the same place. */
  lemma FramesEnd(s: string, r: string, i: nat, q: string, j: nat, ws: set<char>)
    requires Framed(s, r, i, ws) && Trimmed(r, ws) && r != []
    requires Framed(s, q, j, ws) && Trimmed(q, ws) && q != []
    ensures i + |r| == j + |q|
  {
    assert r[|r| - 1] == s[i + |r| - 1] && q[|q| - 1] == s[j + |q| - 1];
  }

  /** A string without whitespace at either end is its own strip. */
  lemma StripTrimmed(s: string, ws: set<char>)
    requires Trimmed(s, ws)
    ensures StripBy(s, ws) == s
  {
    StripUnique(s, s, 0, ws);
  }

  /** `s.lower()` on ASCII letters. Python lowers every cased code point; the
      non-ASCII code points whose lower-case form holds an ASCII letter are
      KELVIN SIGN, which becomes 'k', and CAPITAL I WITH DOT ABOVE, which
      becomes 'i' followed by a combining dot. */
  function AsciiLower(s: string): (r: string)
    ensures |r| == |s|
    ensures forall i :: 0 <= i < |s| ==>
      r[i] == (if 'A' <= s[i] <= 'Z' then (s[i] as int + 32) as char else s[i])
  {
    if s == [] then []
    else
      var c := s[0];
      [if 'A' <= c <= 'Z' then (c as int + 32) as char else c] + AsciiLower(s[1..])
  }

  predicate IsDigit(c: char) {
    '0' <= c <= '9'
  }

  /** The digit part that `int(str)` accepts in base ten: digits, with single
      underscores allowed between two digits. */
  predicate IsDigitRun(s: string) {
    && |s| > 0
    && IsDigit(s[0])
    && IsDigit(s[|s| - 1])
    && (forall i :: 0 <= i < |s| ==> IsDigit(s[i]) || s[i] == '_')
    && (forall i :: 0 <= i < |s| - 1 ==> !(s[i] == '_' && s[i + 1] == '_'))
  }

  /** The number written by the digits of `s`, underscores skipped. */
  function DigitsValue(s: string): nat
  {
    if s == [] then 0
    else
      var last := s[|s| - 1];
      if IsDigit(last) then 10 * DigitsValue(s[..|s| - 1]) + (last as int - '0' as int)
      else DigitsValue(s[..|s| - 1])
  }

  /** The sign and digits `int()` reads once the whitespace around them is
      skipped: an optional `+` or `-`, then a run of digits. */
  function ParseSigned(t: string): (r: Option<int>)
    ensures IsDigitRun(t) ==> r == Some(DigitsValue(t))
    ensures r.Some? ==> t != [] && IsDigit(t[|t| - 1])
    ensures r.Some? && r.value < 0 ==> t[0] == '-'
  {
    var signed := |t| > 0 && (t[0] == '-' || t[0] == '+');
    var body := if signed then t[1..] else t;
    if !IsDigitRun(body) then None
    else
      var v: int := DigitsValue(body);
      Some(if signed && t[0] == '-' then -v else v)
  }

  /** What `int()` reads is a sign, digits and underscores. */
  lemma SignedChars(t: string)
    requires ParseSigned(t).Some?
    ensures forall k :: 0 <= k < |t| ==>
      IsDigit(t[k]) || t[k] == '_' || (k == 0 && (t[k] == '-' || t[k] == '+'))
  {
    var signed := |t| > 0 && (t[0] == '-' || t[0] == '+');
    var body := if signed then t[1..] else t;
    assert signed ==> forall k :: 1 <= k < |t| ==> t[k] == body[k - 1];
  }

  /** `int(s)` for a string `s`: `None` where Python raises `ValueError`.
      The whitespace `int()` skips is stripped and one sign is allowed. */
  function ParseInt(s: string): (r: Option<int>)
    ensures IsDigitRun(s) ==> r == Some(DigitsValue(s))
    ensures r.Some? ==> Strip(s) != [] && IsDigit(Strip(s)[|Strip(s)| - 1])
    ensures r.Some? && r.value < 0 ==> Strip(s)[0] == '-'
  {
    DigitRunStrip(s);
    ParseIntShape(s);
    ParseSigned(StripBy(s, IntSpaces))
  }

  lemma ParseIntShape(s: string)
    ensures var r := ParseSigned(StripBy(s, IntSpaces));
            && (r.Some? ==> Strip(s) != [] && IsDigit(Strip(s)[|Strip(s)| - 1]))
            && (r.Some? && r.value < 0 ==> Strip(s)[0] == '-')
  {
    IntStripIsStrip(s);
  }

  /** When `int()` accepts `s`, what it skipped is all whitespace to
      `str.strip()` too, and `s` holds no separator. */
  lemma ParseIntStrip(s: string)
    ensures ParseInt(s).Some? ==> Strip(s) == StripBy(s, IntSpaces)
    ensures ParseInt(s).Some? ==> forall k :: 0 <= k < |s| ==> s[k] !in Separators
  {
    IntStripIsStrip(s);
  }

  lemma IntStripIsStrip(s: string)
    ensures var t := StripBy(s, IntSpaces);
            ParseSigned(t).Some? ==>
              && Strip(s) == t
              && forall k :: 0 <= k < |s| ==> s[k] !in Separators
  {
    var t := StripBy(s, IntSpaces);
    var i := |s| - |StripLeft(s, IntSpaces)|;
    if ParseSigned(t).Some? {
      IntFramedIsFramed(s, t, i);
      StripUnique(s, t, i, Spaces);
      IntFramedNoSeparator(s, t, i);
    }
  }

  /** Text framed by what `int()` skips is framed by whitespace, and it is
      trimmed when it starts and ends with a sign or a digit. */
  lemma IntFramedIsFramed(s: string, t: string, i: nat)
    requires Framed(s, t, i, IntSpaces) && ParseSigned(t).Some?
    ensures Framed(s, t, i, Spaces) && Trimmed(t, Spaces)
  {
    IntFramedWidens(s, t, i);
    SignedTrimmed(t);
  }

  lemma IntFramedWidens(s: string, t: string, i: nat)
    requires Framed(s, t, i, IntSpaces)
    ensures Framed(s, t, i, Spaces)
  {
  }

  lemma SignedTrimmed(t: string)
    requires ParseSigned(t).Some?
    ensures Trimmed(t, Spaces)
  {
    assert IsDigit(t[0]) || t[0] == '-' || t[0] == '+';
    NotSpace(t[0]);
    NotSpace(t[|t| - 1]);
  }

  /** Signs and digits are not whitespace. */
  lemma NotSpace(c: char)
    requires IsDigit(c) || c == '-' || c == '+'
    ensures c !in Spaces && c !in IntSpaces
  {
  }

  /** Nothing `int()` accepts, nor what it skips, is a separator. */
  lemma IntFramedNoSeparator(s: string, t: string, i: nat)
    requires Framed(s, t, i, IntSpaces) && ParseSigned(t).Some?
    ensures forall k :: 0 <= k < |s| ==> s[k] !in Separators
  {
    SignedChars(t);
    forall k | 0 <= k < |s|
      ensures s[k] !in Separators
    {
      if i <= k < i + |t| {
        assert s[k] == t[k - i];
      }
    }
  }

  /** A run of digits has no whitespace to strip. */
  lemma DigitRunStrip(s: string)
    ensures IsDigitRun(s) ==> StripBy(s, IntSpaces) == s
  {
    if IsDigitRun(s) {
      NotSpace(s[0]);
      NotSpace(s[|s| - 1]);
      StripTrimmed(s, IntSpaces);
    }
  }

  /** A separator before or after the digits makes `int()` raise. */
  lemma ParseIntSeparators()
    ensures ParseInt("\U{1C}5") == None
    ensures ParseInt("5\U{1F}") == None
  {
    ParseIntStrip("\U{1C}5");
    ParseIntStrip("5\U{1F}");
    assert "\U{1C}5"[0] in Separators;
    assert "5\U{1F}"[1] in Separators;
  }

  /** Other whitespace, such as a no-break space or a line feed, is skipped. */
  lemma ParseIntSkipsSpace()
    ensures ParseInt("\U{A0}5\n") == Some(5)
  {
    SkipsSpaceStrip();
    SignedFive();
  }

  lemma SignedFive()
    ensures ParseSigned("5") == Some(5)
  {
    assert IsDigitRun("5") && DigitsValue("5") == 5;
  }

  lemma SkipsSpaceStrip()
    ensures StripBy("\U{A0}5\n", IntSpaces) == "5"
  {
    var s := "\U{A0}5\n";
    SkippedHere();
    assert s[0] == '\U{A0}' && s[2] == '\n' && s[1..2] == "5";
    assert Framed(s, "5", 1, IntSpaces);
    NotSpace('5');
    StripUnique(s, "5", 1, IntSpaces);
  }

  lemma SkippedHere()
    ensures '\U{A0}' in IntSpaces && '\n' in IntSpaces
  {
    assert '\U{A0}' in Spaces && '\U{A0}' !in Separators;
    assert '\n' in Spaces && '\n' !in Separators;
  }

  /** `str(n)` for a non-negative integer: its decimal digits. */
  function ShowNat(n: nat): (r: string)
    ensures |r| > 0 && forall i :: 0 <= i < |r| ==> IsDigit(r[i])
    ensures DigitsValue(r) == n
  {
    var d := ['0' + (n % 10) as char];
    if n < 10 then d
    else
      var r := ShowNat(n / 10) + d;
      assert r[..|r| - 1] == ShowNat(n / 10);
      r
  }

  /** `str(n)` for an integer. */
  function ShowInt(n: int): string {
    if n < 0 then "-" + ShowNat(-n) else ShowNat(n)
  }

  lemma ParseNegativeDigitRun(s: string)
    requires |s| > 1 && s[0] == '-' && IsDigitRun(s[1..])
    ensures ParseInt(s) == Some(-(DigitsValue(s[1..]) as int))
  {
    assert s[|s| - 1] == s[1..][|s| - 2];
    NotSpace(s[0]);
    NotSpace(s[|s| - 1]);
    StripTrimmed(s, IntSpaces);
  }

  /** `int(str(n)) == n`. */
  lemma ParseShowInt(n: int)
    ensures ParseInt(ShowInt(n)) == Some(n)
  {
    var d := ShowNat(if n < 0 then -n else n);
    assert IsDigitRun(d);
    if n < 0 {
      var s := ShowInt(n);
      assert s[1..] == d;
      ParseNegativeDigitRun(s);
    }
  }

  /** `int(s)` raises on a string that holds no digit at all. */
  lemma ParseIntNeedsDigit(s: string)
    requires forall i :: 0 <= i < |s| ==> !IsDigit(s[i])
    ensures ParseInt(s) == None
  {
  }
}

=== FILE: results.dfy ===
/** Failure-carrying values shared by the encoders: an optional value and a
    success-or-error result standing for a Python call that returns or raises. */
module Results {

  datatype Option<+T> = None | Some(value: T) {
    function GetOr(default: T): T {
      match this
      case Some(v) => v
      case None => default
    }
  }

  datatype Result<+T, +E> = Ok(value: T) | Err(error: E)
}

=== FILE: sanitizer.dfy ===
/** The response sanitiser: the two text rewrites applied to a language-model
    reply before it is parsed as JSON (`clean_json_response` and
    `strip_json_comments`, each a `re.sub` plus, for the first, `strip()`). */
module Sanitizer {
  import opened PyText

  const OpenFence: string := "```json"
  const Fence: string := "```"

  /** `re.sub(r'```json\n?', '', s)`. The text is scanned left to right; each
      "```json" found is deleted together with the one newline right after it,
      if there is one, and the scan resumes after what was deleted. */
  function DropOpenFences(s: string): (r: string)
    ensures |r| <= |s|
    ensures Lacks(s, '`') ==> r == s
    decreases |s|
  {
    if StartsWith(s, OpenFence) then
      var rest := s[|OpenFence|..];
      if StartsWith(rest, "\n") then DropOpenFences(rest[1..]) else DropOpenFences(rest)
    else if s == [] then []
    else [s[0]] + DropOpenFences(s[1..])
  }

  /** A fence starts with a backtick. */
  lemma NoFenceWithoutBacktick(s: string)
    requires s == [] || s[0] != '`'
    ensures !StartsWith(s, OpenFence)
  {
    if |s| >= |OpenFence| {
      assert s[..|OpenFence|][0] == s[0];
    }
  }

  /** Text without backticks passes through the scan untouched, whatever
      follows it. */
  lemma {:induction false} DropOpenFencesPrefix(a: string, b: string)
    requires Lacks(a, '`')
    ensures DropOpenFences(a + b) == a + DropOpenFences(b)
    decreases |a|
  {
    if a != [] {
      var s := a + b;
      assert s[0] == a[0];
      NoFenceWithoutBacktick(s);
      assert DropOpenFences(s) == [s[0]] + DropOpenFences(s[1..]);
      assert s[1..] == a[1..] + b;
      DropOpenFencesPrefix(a[1..], b);
      var x := DropOpenFences(b);
      assert [a[0]] + (a[1..] + x) == ([a[0]] + a[1..]) + x;
      assert [a[0]] + a[1..] == a;
    } else {
      assert a + b == b;
    }
  }

  /** At a fence the scan deletes it and one newline right after it. */
  lemma DropAtFence(b: string)
    ensures DropOpenFences(OpenFence + b)
         == if StartsWith(b, "\n") then DropOpenFences(b[1..]) else DropOpenFences(b)
  {
    var g := OpenFence + b;
    assert g[..|OpenFence|] == OpenFence;
    assert g[|OpenFence|..] == b;
  }

  /** An opening fence anywhere in the text is deleted, with the newline that
      follows it. */
  lemma DropOpenFenceAnywhere(a: string, b: string)
    requires Lacks(a, '`')
    ensures DropOpenFences(a + OpenFence + "\n" + b) == a + DropOpenFences(b)
  {
    var f := OpenFence + ("\n" + b);
    DropAtFenceLine(b);
    DropOpenFencesPrefix(a, f);
    Regroup4(a, OpenFence, "\n", b);
  }

  /** An opening fence not followed by a newline is deleted on its own. */
  lemma DropOpenFenceInline(a: string, b: string)
    requires Lacks(a, '`')
    requires !StartsWith(b, "\n")
    ensures DropOpenFences(a + OpenFence + b) == a + DropOpenFences(b)
  {
    DropAtFence(b);
    DropOpenFencesPrefix(a, OpenFence + b);
    assert a + OpenFence + b == a + (OpenFence + b);
  }

  /** `re.sub(r'\n?```$', '', s)`. Without MULTILINE, `$` matches at the end
      of the text and just before a newline that ends it, so a match is a fence
      that ends the text, or ends it but for one final newline; the leftmost
      candidate wins and includes a newline right before the fence when there
      is one. Nothing can match after it. */
  function DropClosingFence(s: string): (r: string)
    ensures |r| <= |s|
    ensures r == s <==> !EndsWith(s, Fence) && !EndsWith(s, Fence + "\n")
    ensures EndsWith(s, Fence + "\n") ==> EndsWith(r, "\n")
  {
    if EndsWith(s, Fence + "\n") then
      var k := if EndsWith(s, "\n" + Fence + "\n") then 5 else 4;
      s[..|s| - k] + "\n"
    else if EndsWith(s, Fence) then
      var k := if EndsWith(s, "\n" + Fence) then 4 else 3;
      s[..|s| - k]
    else s
  }

  /** A fence on the last line is removed with the line break before it. */
  lemma DropClosingFenceLastLine(body: string)
    ensures DropClosingFence(body + "\n" + Fence) == body
  {
    var s := body + "\n" + Fence;
    assert |s| == |body| + 4 && s[|s| - 1] == '`';
    assert !EndsWith(s, Fence + "\n") by {
      assert s[|s| - 4..][3] == s[|s| - 1];
    }
    assert s[|s| - 4..] == "\n" + Fence;
    assert s[..|s| - 4] == body;
  }

  /** A fence on the line before a final line break is removed with the line
      break before it, and the final one is kept. */
  lemma DropClosingFenceBeforeBreak(body: string)
    ensures DropClosingFence(body + "\n" + Fence + "\n") == body + "\n"
  {
    var t := body + "\n" + Fence + "\n";
    assert |t| == |body| + 5;
    assert t[|t| - 5..] == "\n" + Fence + "\n";
    assert t[|t| - 4..] == Fence + "\n";
    assert t[..|t| - 5] == body;
  }

  /** The closing fence of a fenced reply is removed together with the line
      break before it, and a line break after it is kept. */
  lemma DropClosingFenceOfBlock(body: string)
    ensures DropClosingFence(body + "\n" + Fence) == body
    ensures DropClosingFence(body + "\n" + Fence + "\n") == body + "\n"
  {
    DropClosingFenceLastLine(body);
    DropClosingFenceBeforeBreak(body);
  }

  /** A fence glued to the end of the last line is removed on its own. */
  lemma DropClosingFenceGlued(body: string)
    requires body == [] || body[|body| - 1] != '\n'
    ensures DropClosingFence(body + Fence) == body
    ensures DropClosingFence(body + Fence + "\n") == body + "\n"
  {
    DropClosingFenceGluedBreak(body);
    var s := body + Fence;
    assert s[|s| - 3..] == Fence;
    assert !EndsWith(s, Fence + "\n") by {
      assert |s| >= 4 ==> s[|s| - 4..][3] == s[|s| - 1] == '`';
    }
    assert s[..|s| - 3] == body;
    if |s| >= 4 {
      assert s[|s| - 4] == body[|body| - 1];
    }
  }

  /** Text without backticks has no closing fence to drop. */
  lemma DropClosingFenceGluedBreak(body: string)
    requires body == [] || body[|body| - 1] != '\n'
    ensures DropClosingFence(body + Fence + "\n") == body + "\n"
  {
    var t := body + Fence + "\n";
    assert t[|t| - 4..] == Fence + "\n";
    assert !EndsWith(t, "\n" + Fence + "\n") by {
      if |t| >= 5 {
        assert t[|t| - 5..][0] == t[|t| - 5] == body[|body| - 1];
      }
    }
    assert t[..|t| - 4] == body;
  }

  lemma DropClosingFenceNoBacktick(s: string)
    ensures Lacks(s, '`') ==> DropClosingFence(s) == s
  {
    EndsWithAt(s, Fence, 2);
    EndsWithAt(s, Fence + "\n", 2);
    assert Fence[2] == '`' && (Fence + "\n")[2] == '`';
  }

  /** A text that ends with `p` holds `p`'s characters in its last places. */
  lemma EndsWithAt(s: string, p: string, i: nat)
    requires i < |p|
    ensures EndsWith(s, p) ==> s[|s| - |p| + i] == p[i]
  {
    if EndsWith(s, p) {
      assert s[|s| - |p|..][i] == s[|s| - |p| + i];
    }
  }

  /** `clean_json_response`: fences removed, then surrounding whitespace. */
  function CleanJsonResponse(s: string): (r: string)
    ensures |r| <= |s|
    ensures Trimmed(r, Spaces)
    ensures Lacks(s, '`') ==> r == Strip(s)
  {
    DropFencesNoBacktick(s);
    Strip(DropClosingFence(DropOpenFences(s)))
  }

  /** Text without backticks has no fence of either kind. */
  lemma DropFencesNoBacktick(s: string)
    ensures Lacks(s, '`') ==> DropClosingFence(DropOpenFences(s)) == s
  {
    DropClosingFenceNoBacktick(s);
  }

  /** Text shorter than a fence passes through the scan untouched. */
  lemma {:induction false} DropOpenFencesShort(s: string)
    requires |s| < |OpenFence|
    ensures DropOpenFences(s) == s
  {
    if s != [] {
      DropOpenFencesShort(s[1..]);
    }
  }

  /** A reply wrapped in a ```json block comes out as the trimmed block body. */
  lemma CleanFencedReply(body: string)
    requires Lacks(body, '`')
    ensures CleanJsonResponse(OpenFence + "\n" + body + "\n" + Fence) == Strip(body)
  {
    DropOpenOfBlock(body);
    DropClosingFenceLastLine(body);
  }

  /** The scan removes the opening line of a fenced reply and nothing else. */
  lemma DropOpenOfBlock(body: string)
    requires Lacks(body, '`')
    ensures DropOpenFences(OpenFence + "\n" + body + "\n" + Fence) == body + "\n" + Fence
  {
    var x := body + "\n" + Fence;
    Regroup(OpenFence, "\n", body, "\n", Fence);
    DropAtFenceLine(x);
    DropOpenFencesLastLine(body);
  }

  lemma Regroup(a: string, b: string, c: string, d: string, e: string)
    ensures a + b + c + d + e == a + (b + (c + d + e))
  {
  }

  /** A fence followed by a newline is deleted together with it. */
  lemma Regroup4(a: string, b: string, c: string, d: string)
    ensures a + b + c + d == a + (b + (c + d))
  {
  }

  lemma DropAtFenceLine(x: string)
    ensures DropOpenFences(OpenFence + ("\n" + x)) == DropOpenFences(x)
  {
    DropAtFence("\n" + x);
    assert ("\n" + x)[1..] == x;
  }

  /** A closing fence on its own last line is not an opening fence. */
  lemma DropOpenFencesLastLine(body: string)
    requires Lacks(body, '`')
    ensures DropOpenFences(body + "\n" + Fence) == body + "\n" + Fence
  {
    var y := body + "\n";
    assert Lacks(y, '`');
    DropOpenFencesPrefix(y, Fence);
    DropOpenFencesShort(Fence);
  }

  /** Occurrences of `c` in `s`. */
  function Count(s: string, c: char): nat {
    if s == [] then 0 else (if s[0] == c then 1 else 0) + Count(s[1..], c)
  }

  lemma {:induction false} CountSplit(s: string, c: char, n: nat)
    requires n <= |s|
    ensures Count(s, c) == Count(s[..n], c) + Count(s[n..], c)
  {
    if n > 0 {
      assert s[..n][1..] == s[1..][..n - 1];
      assert s[n..] == s[1..][n - 1..];
      CountSplit(s[1..], c, n - 1);
    }
  }

  lemma {:induction false} CountLacks(s: string, c: char)
    requires Lacks(s, c)
    ensures Count(s, c) == 0
  {
    if s != [] {
      CountLacks(s[1..], c);
    }
  }

  /** Index of the first line break of `s`, or `|s|` when there is none. */
  function LineEnd(s: string): (n: nat)
    ensures n <= |s| && Lacks(s[..n], '\n')
    ensures n < |s| ==> s[n] == '\n'
  {
    if s == [] || s[0] == '\n' then 0
    else
      var n := 1 + LineEnd(s[1..]);
      assert s[..n] == [s[0]] + s[1..][..n - 1];
      n
  }

  /** A "//" starts at index `i` of `s`. */
  predicate MarkerAt(s: string, i: int) {
    0 <= i && i + 1 < |s| && s[i] == '/' && s[i + 1] == '/'
  }

  predicate NoMarker(s: string) {
    forall i :: 0 <= i < |s| ==> !MarkerAt(s, i)
  }

  /** `re.sub(r'//.*', '', s)`: `.` matches anything but a line break, so each
      match runs from a "//" to the end of its line. */
  function StripJsonComments(s: string): (r: string)
    ensures NoMarker(r)
    ensures Count(r, '\n') == Count(s, '\n')
    ensures r != [] ==> s != [] && (r[0] == '\n' || (r[0] == s[0] && !StartsWith(s, "//")))
    decreases |s|
  {
    if s == [] then []
    else if StartsWith(s, "//") then
      var n := LineEnd(s);
      CountSplit(s, '\n', n);
      CountLacks(s[..n], '\n');
      StripJsonComments(s[n..])
    else
      var t := StripJsonComments(s[1..]);
      var r := [s[0]] + t;
      assert forall i :: 1 <= i < |r| ==> MarkerAt(r, i) == MarkerAt(t, i - 1);
      assert !MarkerAt(r, 0);
      r
  }

  /** Index of the first "//" of `s`, or `|s|` when there is none. */
  function FirstMarker(s: string): (n: nat)
    ensures n <= |s|
    ensures forall i :: 0 <= i < n ==> !MarkerAt(s, i)
    ensures n < |s| ==> MarkerAt(s, n)
  {
    if |s| < 2 then |s|
    else if StartsWith(s, "//") then 0
    else
      var n := 1 + FirstMarker(s[1..]);
      assert forall i :: 1 <= i < |s| ==> MarkerAt(s, i) == MarkerAt(s[1..], i - 1);
      n
  }

  /** On one line, everything from the first "//" on is deleted. */
  lemma {:induction false} StripCommentsLine(line: string)
    requires Lacks(line, '\n')
    ensures StripJsonComments(line) == line[..FirstMarker(line)]
    decreases |line|
  {
    if line != [] && !StartsWith(line, "//") {
      if |line| >= 2 {
        StripCommentsLine(line[1..]);
        assert line[..FirstMarker(line)] == [line[0]] + line[1..][..FirstMarker(line[1..])];
      } else {
        assert line[1..] == [];
      }
    } else if line != [] {
      assert LineEnd(line) == |line|;
    }
  }

  /** A comment that opens a line ends at that line's break. */
  lemma StripCommentsLeadingMarker(line: string, rest: string)
    requires Lacks(line, '\n') && StartsWith(line, "//")
    ensures StripJsonComments(line + "\n" + rest) == "\n" + StripJsonComments(rest)
  {
    var s := line + "\n" + rest;
    assert s[..2] == line[..2];
    assert s[|line|] == '\n';
    assert s[..|line|] == line;
    assert LineEnd(s) == |line|;
    assert s[|line|..] == "\n" + rest;
    var t := "\n" + rest;
    assert !StartsWith(t, "//") by {
      if |t| >= 2 {
        assert t[..2][0] == '\n';
      }
    }
    assert t[1..] == rest;
  }

  /** Lines are stripped one at a time: a line's comment never reaches past its
      line break, and the line break itself is kept. */
  lemma {:induction false} StripCommentsLines(line: string, rest: string)
    requires Lacks(line, '\n')
    ensures StripJsonComments(line + "\n" + rest)
         == line[..FirstMarker(line)] + "\n" + StripJsonComments(rest)
    decreases |line|
  {
    var s := line + "\n" + rest;
    if line == [] {
      assert s == "\n" + rest;
      assert !StartsWith(s, "//") by {
        if |s| >= 2 {
          assert s[..2][0] == '\n';
        }
      }
      assert s[1..] == rest;
    } else if StartsWith(line, "//") {
      StripCommentsLeadingMarker(line, rest);
    } else {
      StripCommentsLines(line[1..], rest);
      StripCommentsLineStep(line, rest);
    }
  }

  /** A first character that does not open a comment is kept. */
  lemma StripCommentsKeepsFirst(line: string, rest: string)
    requires Lacks(line, '\n') && line != [] && !StartsWith(line, "//")
    ensures StripJsonComments(line + "\n" + rest)
         == [line[0]] + StripJsonComments(line[1..] + "\n" + rest)
  {
    var s := line + "\n" + rest;
    assert !StartsWith(s, "//") by {
      if |line| == 1 {
        assert s[..2][1] == '\n';
      } else {
        assert s[..2] == line[..2];
      }
    }
    assert s[1..] == line[1..] + "\n" + rest;
  }

  lemma FirstMarkerStep(line: string)
    requires line != [] && !StartsWith(line, "//")
    ensures line[..FirstMarker(line)] == [line[0]] + line[1..][..FirstMarker(line[1..])]
  {
    if |line| < 2 {
      assert line[1..] == [];
    }
  }

  /** One step of the line induction. */
  lemma StripCommentsLineStep(line: string, rest: string)
    requires Lacks(line, '\n') && line != [] && !StartsWith(line, "//")
    requires StripJsonComments(line[1..] + "\n" + rest)
          == line[1..][..FirstMarker(line[1..])] + "\n" + StripJsonComments(rest)
    ensures StripJsonComments(line + "\n" + rest)
         == line[..FirstMarker(line)] + "\n" + StripJsonComments(rest)
  {
    StripCommentsKeepsFirst(line, rest);
    FirstMarkerStep(line);
    ConsLine(StripJsonComments(line + "\n" + rest), StripJsonComments(line[1..] + "\n" + rest),
             line[0], line[1..][..FirstMarker(line[1..])], StripJsonComments(rest),
             line[..FirstMarker(line)]);
  }

  /** Putting a character in front of a line that is followed by more text. */
  lemma ConsLine(a: string, b: string, c: char, p: string, x: string, q: string)
    requires a == [c] + b && b == p + "\n" + x && q == [c] + p
    ensures a == q + "\n" + x
  {
    assert [c] + (p + "\n" + x) == ([c] + p) + "\n" + x;
  }

  /** Text without a "//" is left as it is. */
  lemma {:induction false} StripCommentsNoMarker(s: string)
    requires NoMarker(s)
    ensures StripJsonComments(s) == s
    decreases |s|
  {
    if s != [] {
      var t := s[1..];
      assert NoMarker(t) by {
        forall i | 0 <= i < |t|
          ensures !MarkerAt(t, i)
        {
          assert MarkerAt(t, i) ==> MarkerAt(s, i + 1);
        }
      }
      StripCommentsNoMarker(t);
      assert !StartsWith(s, "//") by {
        if |s| >= 2 {
          assert s[..2][0] == s[0] && s[..2][1] == s[1];
          assert !MarkerAt(s, 0);
        }
      }
      assert s == [s[0]] + t;
    }
  }

  /** Stripping comments twice is stripping them once. */
  lemma StripCommentsIdempotent(s: string)
    ensures StripJsonComments(StripJsonComments(s)) == StripJsonComments(s)
  {
    StripCommentsNoMarker(StripJsonComments(s));
  }
}

=== FILE: stable_sort.dfy ===
/** Python's `sorted(xs, key=...)`: a stable sort. Modelled as insertion sort
    by a real-valued key, with the properties that pin it down: the result is
    ordered by key, is a permutation of the input, and keeps the input order
    among elements with equal keys; any sequence with those properties is
    this one. */
module StableSort {

  predicate SortedBy<T>(s: seq<T>, key: T -> real) {
    forall i, j :: 0 <= i < j < |s| ==> key(s[i]) <= key(s[j])
  }

  /** The elements of `s` whose key is `k`, in the order of `s`. */
  function WithKey<T>(s: seq<T>, key: T -> real, k: real): (r: seq<T>)
    ensures |r| <= |s|
  {
    if s == [] then []
    else (if key(s[0]) == k then [s[0]] else []) + WithKey(s[1..], key, k)
  }

  /** `x` placed before the first element whose key is not smaller. */
  function Insert<T>(x: T, s: seq<T>, key: T -> real): (r: seq<T>)
    ensures |r| == |s| + 1
    ensures multiset(r) == multiset(s) + multiset{x}
  {
    if s == [] || key(x) <= key(s[0]) then [x] + s
    else
      assert s == [s[0]] + s[1..];
      [s[0]] + Insert(x, s[1..], key)
  }

  /** Every element of the result is `x` or an element of `s`. */
  lemma InsertMember<T>(x: T, s: seq<T>, key: T -> real, y: T)
    requires y in Insert(x, s, key)
    ensures y == x || y in s
  {
    assert y in multiset(Insert(x, s, key));
  }

  lemma {:induction false} InsertSorted<T>(x: T, s: seq<T>, key: T -> real)
    requires SortedBy(s, key)
    ensures SortedBy(Insert(x, s, key), key)
  {
    if s != [] && key(s[0]) < key(x) {
      var t := Insert(x, s[1..], key);
      InsertSorted(x, s[1..], key);
      var r := [s[0]] + t;
      forall i, j | 0 <= i < j < |r|
        ensures key(r[i]) <= key(r[j])
      {
        if i == 0 {
          assert r[j] == t[j - 1];
          InsertMember(x, s[1..], key, t[j - 1]);
        } else {
          assert r[i] == t[i - 1] && r[j] == t[j - 1];
        }
      }
    }
  }

  function SortBy<T>(s: seq<T>, key: T -> real): (r: seq<T>)
    ensures |r| == |s|
    ensures SortedBy(r, key)
    ensures multiset(r) == multiset(s)
  {
    if s == [] then []
    else
      assert s == [s[0]] + s[1..];
      InsertSorted(s[0], SortBy(s[1..], key), key);
      Insert(s[0], SortBy(s[1..], key), key)
  }

  lemma WithKeyAppend<T>(a: seq<T>, b: seq<T>, key: T -> real, k: real)
    ensures WithKey(a + b, key, k) == WithKey(a, key, k) + WithKey(b, key, k)
  {
    if a != [] {
      assert (a + b)[1..] == a[1..] + b;
      WithKeyAppend(a[1..], b, key, k);
    } else {
      assert a + b == b;
    }
  }

  lemma {:induction false} WithKeyIn<T>(s: seq<T>, key: T -> real, k: real, x: T)
    requires x in WithKey(s, key, k)
    ensures x in s && key(x) == k
  {
    if s != [] {
      if x != s[0] || key(s[0]) != k {
        assert x in WithKey(s[1..], key, k);
        WithKeyIn(s[1..], key, k, x);
      }
    }
  }

  lemma WithKeyOne<T>(a: T, key: T -> real, k: real)
    ensures WithKey([a], key, k) == if key(a) == k then [a] else []
  {
    assert [a][1..] == [];
  }

  /** Two elements with different keys can trade places without changing
      any key class. */
  lemma SwapTies<T>(a: T, b: T, t: seq<T>, it: seq<T>, key: T -> real, k: real)
    requires key(a) != key(b)
    requires WithKey(it, key, k) == WithKey([b] + t, key, k)
    ensures WithKey([a] + it, key, k) == WithKey([b] + ([a] + t), key, k)
  {
    WithKeyAppend([a], it, key, k);
    WithKeyAppend([b], t, key, k);
    WithKeyAppend([a], t, key, k);
    WithKeyAppend([b], [a] + t, key, k);
    WithKeyOne(a, key, k);
    WithKeyOne(b, key, k);
  }

  /** Putting the same element in front of two sequences with the same key
      classes keeps them the same. */
  lemma ConsTies<T>(x: T, s: seq<T>, t: seq<T>, u: seq<T>, key: T -> real, k: real)
    requires WithKey(t, key, k) == WithKey(s, key, k)
    requires WithKey(u, key, k) == WithKey([x] + t, key, k)
    ensures WithKey(u, key, k) == WithKey([x] + s, key, k)
  {
    WithKeyAppend([x], t, key, k);
    WithKeyAppend([x], s, key, k);
  }

  /** Inserting into a sorted sequence keeps `x` ahead of the elements with
      the same key. */
  lemma {:induction false} InsertKeepsTies<T>(x: T, s: seq<T>, key: T -> real, k: real)
    requires SortedBy(s, key)
    ensures WithKey(Insert(x, s, key), key, k) == WithKey([x] + s, key, k)
  {
    if s != [] && key(s[0]) < key(x) {
      var t := s[1..];
      assert SortedBy(t, key);
      InsertKeepsTies(x, t, key, k);
      assert Insert(x, s, key) == [s[0]] + Insert(x, t, key);
      assert s == [s[0]] + t;
      SwapTies(s[0], x, t, Insert(x, t, key), key, k);
    }
  }

  /** Stability: for every key, the elements with that key come out in the
      order they went in. */
  lemma {:induction false} SortByKeepsTies<T>(s: seq<T>, key: T -> real, k: real)
    ensures WithKey(SortBy(s, key), key, k) == WithKey(s, key, k)
  {
    if s != [] {
      var t := SortBy(s[1..], key);
      SortByKeepsTies(s[1..], key, k);
      InsertKeepsTies(s[0], t, key, k);
      assert SortBy(s, key) == Insert(s[0], t, key);
      assert s == [s[0]] + s[1..];
      ConsTies(s[0], s[1..], t, Insert(s[0], t, key), key, k);
    }
  }

  /** The elements of each key class, in order, are the same in both. */
  ghost predicate SameTies<T>(s: seq<T>, t: seq<T>, key: T -> real) {
    forall k :: WithKey(s, key, k) == WithKey(t, key, k)
  }

  lemma WithKeyMember<T>(s: seq<T>, key: T -> real, i: nat)
    requires i < |s|
    ensures WithKey(s, key, key(s[i])) != []
  {
    if i > 0 {
      WithKeyMember(s[1..], key, i - 1);
      WithKeyAppend([s[0]], s[1..], key, key(s[i]));
      assert s == [s[0]] + s[1..];
    }
  }

  /** In a key-sorted sequence, no element has a smaller key than the first. */
  lemma FirstKeyLeast<T>(s: seq<T>, key: T -> real, k: real)
    requires SortedBy(s, key) && WithKey(s, key, k) != []
    ensures key(s[0]) <= k
  {
    var w := WithKey(s, key, k);
    assert w[0] in w;
    WithKeyIn(s, key, k, w[0]);
    var j :| 0 <= j < |s| && s[j] == w[0];
  }

  lemma WithKeyCons<T>(s: seq<T>, key: T -> real, k: real)
    requires s != []
    ensures WithKey(s, key, k) == WithKey([s[0]], key, k) + WithKey(s[1..], key, k)
  {
    WithKeyAppend([s[0]], s[1..], key, k);
    assert s == [s[0]] + s[1..];
  }

  /** Two non-empty key-sorted sequences with the same key classes start with
      the same element and agree on the key classes of their tails. */
  lemma SameTiesHead<T>(s: seq<T>, t: seq<T>, key: T -> real)
    requires s != [] && t != []
    requires SortedBy(s, key) && SortedBy(t, key) && SameTies(s, t, key)
    ensures s[0] == t[0]
    ensures SameTies(s[1..], t[1..], key)
  {
    var k := key(s[0]);
    WithKeyMember(s, key, 0);
    WithKeyMember(t, key, 0);
    assert WithKey(t, key, k) == WithKey(s, key, k);
    FirstKeyLeast(t, key, k);
    assert WithKey(s, key, key(t[0])) == WithKey(t, key, key(t[0]));
    FirstKeyLeast(s, key, key(t[0]));
    assert key(t[0]) == k;
    WithKeyCons(s, key, k);
    WithKeyCons(t, key, k);
    assert WithKey(s, key, k)[0] == s[0];
    assert WithKey(t, key, k)[0] == t[0];
    assert s[0] == t[0];
    forall k2
      ensures WithKey(s[1..], key, k2) == WithKey(t[1..], key, k2)
    {
      WithKeyCons(s, key, k2);
      WithKeyCons(t, key, k2);
      assert [s[0]] == [t[0]];
      var h := WithKey([s[0]], key, k2);
      assert WithKey([t[0]], key, k2) == h;
      var whole := WithKey(s, key, k2);
      assert whole == WithKey(t, key, k2);
      assert WithKey(s[1..], key, k2) == whole[|h|..];
      assert WithKey(t[1..], key, k2) == whole[|h|..];
    }
  }

  /** Two key-sorted sequences with the same key classes are equal. */
  lemma {:induction false} SortedSameTiesEqual<T>(s: seq<T>, t: seq<T>, key: T -> real)
    requires SortedBy(s, key) && SortedBy(t, key) && SameTies(s, t, key)
    ensures s == t
    decreases |s|
  {
    if s == [] {
      if t != [] {
        WithKeyMember(t, key, 0);
      }
    } else if t == [] {
      WithKeyMember(s, key, 0);
    } else {
      SameTiesHead(s, t, key);
      assert SortedBy(s[1..], key) && SortedBy(t[1..], key);
      SortedSameTiesEqual(s[1..], t[1..], key);
      assert s == [s[0]] + s[1..] && t == [t[0]] + t[1..];
    }
  }

  /** `SortBy` is the stable sort: the only key-sorted arrangement of `s` that
      keeps every class of equal keys in input order. */
  lemma SortByUnique<T>(s: seq<T>, t: seq<T>, key: T -> real)
    requires SortedBy(t, key) && SameTies(t, s, key)
    ensures t == SortBy(s, key)
  {
    forall k
      ensures WithKey(t, key, k) == WithKey(SortBy(s, key), key, k)
    {
      SortByKeepsTies(s, key, k);
    }
    SortedSameTiesEqual(t, SortBy(s, key), key);
  }
}

=== FILE: three_osc.dfy ===
/** The 3xOsc template patcher, `create_3xosc_fst`: a copy of the template
    preset with single bytes overwritten at fixed offsets, one offset per
    known parameter name. Reading the template and writing the result are
    left to the caller: the template comes in as bytes and the patched copy
    goes out as bytes. */
module ThreeOsc {
  import opened Results
  import opened Json
  import opened PyText
  import opened PyNum
  import opened Bytes

  /** `OSC_WAVEFORM_MAP`. */
  const WaveformMap: map<string, nat> :=
    map["sine" := 0, "triangle" := 1, "saw" := 2, "square" := 3, "noise" := 4]

  /** `OSC_OFFSETS`, in its insertion order, which is the order the patcher
      visits the parameters in. */
  const OscOffsets: seq<(string, nat)> := [
    ("osc1_waveform", 159), ("osc1_coarse", 163), ("osc1_fine", 167),
    ("osc1_volume", 171), ("osc1_phase", 175), ("osc1_detune", 179),
    ("osc2_waveform", 187), ("osc2_coarse", 191), ("osc2_fine", 195),
    ("osc2_volume", 199), ("osc2_phase", 203), ("osc2_detune", 207),
    ("osc3_waveform", 215), ("osc3_coarse", 219), ("osc3_fine", 223),
    ("osc3_volume", 227), ("osc3_phase", 231), ("osc3_detune", 235),
    ("mix_osc1", 239), ("mix_osc2", 243), ("mix_osc3", 247)
  ]

  /** The exceptions that escape `create_3xosc_fst` (it catches none). */
  datatype PatchError =
    | NotAnInteger(key: string)                  // `int(value)` raises
    | OffsetOutOfRange(key: string, offset: nat)   // `data[offset] = ...` raises `IndexError`
    | NotAnObject                                  // `params.get` raises `AttributeError`

  /** `OSC_WAVEFORM_MAP.get(name, 0)`: unknown names select waveform 0. */
  function WaveformCode(name: string): (r: nat)
    ensures name in WaveformMap ==> r == WaveformMap[name]
    ensures name !in WaveformMap ==> r == 0
    ensures r <= 4
  {
    if name in WaveformMap then WaveformMap[name] else 0
  }

  /** `int(v)` for a parsed JSON value; `None` where Python raises. */
  function ToInt(v: Value): (r: Option<int>)
    ensures v.Int? ==> r == Some(v.i)
    ensures v.Bool? ==> r == Some(if v.b then 1 else 0)
    ensures v.Float? ==> r == Some(Trunc(v.x))
    ensures v.Null? || v.Arr? || v.Obj? ==> r.None?
    ensures v.Str? ==> r == ParseInt(v.s)
  {
    match v
    case Bool(b) => Some(if b then 1 else 0)
    case Int(i) => Some(i)
    case Float(x) => Some(Trunc(x))
    case Str(s) => ParseInt(s)
    case _ => None
  }

  /** A parameter whose name contains "waveform" and whose value is a string
      is a waveform name. */
  predicate IsWaveformName(key: string, v: Value) {
    Contains(key, "waveform") && v.Str?
  }

  /** The byte written for `key` when its value is `v`, or `None` when
      `int(value)` raises. */
  function FieldByte(key: string, v: Value): (r: Option<uint8>)
    ensures IsWaveformName(key, v) ==> r == Some(WaveformCode(AsciiLower(v.s)))
    ensures !IsWaveformName(key, v) ==> (r.Some? <==> ToInt(v).Some?)
    ensures !IsWaveformName(key, v) && r.Some? ==> r.value == Clamp(ToInt(v).value, 0, 255)
  {
    var w := if IsWaveformName(key, v) then Int(WaveformCode(AsciiLower(v.s))) else v;
    match ToInt(w)
    case None => None
    case Some(n) => Some(Clamp(n, 0, 255))
  }

  /** `params.get(key) is not None`: the parameter is set. */
  predicate IsSet(params: map<string, Value>, key: string) {
    Get(params, key) != Null
  }

  /** Every set parameter of `table` converts and lands inside `data`. */
  predicate Writable(data: seq<uint8>, params: map<string, Value>, table: seq<(string, nat)>) {
    forall j :: 0 <= j < |table| && IsSet(params, table[j].0) ==>
      FieldByte(table[j].0, Get(params, table[j].0)).Some? && table[j].1 < |data|
  }

  /** No set parameter of `table` is stored at `i`. */
  predicate Untouched(params: map<string, Value>, table: seq<(string, nat)>, i: int) {
    forall j :: 0 <= j < |table| && IsSet(params, table[j].0) ==> table[j].1 != i
  }

  predicate DistinctOffsets(table: seq<(string, nat)>) {
    forall j, k :: 0 <= j < k < |table| ==> table[j].1 != table[k].1
  }

  /** The loop of `create_3xosc_fst` over `table`, writing into `data`. */
  function Patch(data: seq<uint8>, params: map<string, Value>, table: seq<(string, nat)>)
    : (r: Result<seq<uint8>, PatchError>)
    ensures r.Ok? ==> |r.value| == |data|
    ensures r.Err? ==> !r.error.NotAnObject? && IsSet(params, r.error.key)
    decreases |table|
  {
    if table == [] then Ok(data)
    else
      var key := table[0].0;
      var offset := table[0].1;
      var v := Get(params, key);
      assert forall j :: 1 <= j < |table| ==> table[j] == table[1..][j - 1];
      if v.Null? then Patch(data, params, table[1..])
      else
        match FieldByte(key, v)
        case None => Err(NotAnInteger(key))
        case Some(b) =>
          if offset < |data| then Patch(data[offset := b], params, table[1..])
          else Err(OffsetOutOfRange(key, offset))
  }

  /** Patching fails exactly when some set parameter does not convert or
      lies past the end of `data`. */
  lemma PatchOk(data: seq<uint8>, params: map<string, Value>, table: seq<(string, nat)>)
    ensures Patch(data, params, table).Ok? <==> Writable(data, params, table)
  {
    if Writable(data, params, table) {
      assert table[..|table|] == table;
      var d := PatchPrefix(data, params, table, |table|);
      assert table[|table|..] == [];
    }
    if Patch(data, params, table).Ok? {
      PatchOkOnly(data, params, table);
    }
  }

  lemma {:induction false} PatchOkOnly(data: seq<uint8>, params: map<string, Value>, table: seq<(string, nat)>)
    requires Patch(data, params, table).Ok?
    ensures Writable(data, params, table)
    decreases |table|
  {
    if table != [] {
      var d := PatchHead(data, params, table);
      PatchOkOnly(d, params, table[1..]);
      WritableCons(data, d, params, table);
    }
  }

  /** The first step of a loop that succeeds: the head entry, when set,
      converts and fits, and the rest of the loop runs on the data it
      leaves. */
  lemma PatchHead(data: seq<uint8>, params: map<string, Value>, table: seq<(string, nat)>)
    returns (d: seq<uint8>)
    requires table != [] && Patch(data, params, table).Ok?
    ensures |d| == |data|
    ensures IsSet(params, table[0].0) ==>
              FieldByte(table[0].0, Get(params, table[0].0)).Some? && table[0].1 < |data|
    ensures Patch(data, params, table) == Patch(d, params, table[1..])
  {
    var key := table[0].0;
    if IsSet(params, key) {
      assert FieldByte(key, Get(params, key)).Some? && table[0].1 < |data|;
      d := data[table[0].1 := FieldByte(key, Get(params, key)).value];
      PatchWriteHead(data, params, table);
    } else {
      d := data;
      PatchSkipHead(data, params, table);
    }
  }

  /** A writable head in front of a writable tail, for data of the same
      length, is writable. */
  lemma WritableCons(data: seq<uint8>, d: seq<uint8>, params: map<string, Value>, table: seq<(string, nat)>)
    requires table != [] && |d| == |data| && Writable(d, params, table[1..])
    requires IsSet(params, table[0].0) ==>
               FieldByte(table[0].0, Get(params, table[0].0)).Some? && table[0].1 < |data|
    ensures Writable(data, params, table)
  {
    forall i | 0 <= i < |table| && IsSet(params, table[i].0)
      ensures FieldByte(table[i].0, Get(params, table[i].0)).Some? && table[i].1 < |data|
    {
      if i > 0 {
        assert table[i] == table[1..][i - 1];
      }
    }
  }

  /** A byte no set parameter of `table` is stored at keeps its value. */
  lemma {:induction false} PatchKeeps(data: seq<uint8>, params: map<string, Value>, table: seq<(string, nat)>, i: nat)
    requires Patch(data, params, table).Ok?
    requires i < |data| && Untouched(params, table, i)
    ensures Patch(data, params, table).value[i] == data[i]
    decreases |table|
  {
    if table != [] {
      var key := table[0].0;
      var offset := table[0].1;
      var v := Get(params, key);
      assert forall j :: 1 <= j < |table| ==> table[j] == table[1..][j - 1];
      if v.Null? {
        PatchKeeps(data, params, table[1..], i);
      } else {
        var b := FieldByte(key, v).value;
        assert offset != i;
        PatchKeeps(data[offset := b], params, table[1..], i);
      }
    }
  }

  /** When no two entries share an offset, each set parameter's byte is at its
      offset in the result. */
  lemma PatchWrites(data: seq<uint8>, params: map<string, Value>, table: seq<(string, nat)>, j: nat)
    requires Patch(data, params, table).Ok? && DistinctOffsets(table)
    requires j < |table| && IsSet(params, table[j].0)
    ensures table[j].1 < |data| && FieldByte(table[j].0, Get(params, table[j].0)).Some?
    ensures Patch(data, params, table).value[table[j].1] == FieldByte(table[j].0, Get(params, table[j].0)).value
  {
    PatchOk(data, params, table);
    var e, rest := PatchThrough(data, params, table, j);
    PatchKeeps(e, params, rest, table[j].1);
  }

  /** Running the loop up to and including the `j`th entry writes its byte,
      and no later set entry writes at the same offset. */
  lemma PatchThrough(data: seq<uint8>, params: map<string, Value>, table: seq<(string, nat)>, j: nat)
    returns (e: seq<uint8>, rest: seq<(string, nat)>)
    requires Writable(data, params, table) && DistinctOffsets(table)
    requires j < |table| && IsSet(params, table[j].0)
    ensures |e| == |data| && table[j].1 < |e| && FieldByte(table[j].0, Get(params, table[j].0)).Some?
    ensures e[table[j].1] == FieldByte(table[j].0, Get(params, table[j].0)).value
    ensures Patch(data, params, table) == Patch(e, params, rest)
    ensures Untouched(params, rest, table[j].1)
  {
    var key := table[j].0;
    var offset := table[j].1;
    var b := FieldByte(key, Get(params, key)).value;
    WritablePrefix(data, params, table, j);
    var d := PatchPrefix(data, params, table, j);
    assert table[j..][0] == table[j];
    PatchWriteHead(d, params, table[j..]);
    e := d[offset := b];
    rest := table[j + 1..];
    assert table[j..][1..] == rest;
    UntouchedAfter(params, table, j);
  }

  lemma WritablePrefix(data: seq<uint8>, params: map<string, Value>, table: seq<(string, nat)>, j: nat)
    requires j <= |table| && Writable(data, params, table)
    ensures Writable(data, params, table[..j])
  {
    assert forall i :: 0 <= i < j ==> table[..j][i] == table[i];
  }

  /** With distinct offsets, no entry after the `j`th writes at its offset. */
  lemma UntouchedAfter(params: map<string, Value>, table: seq<(string, nat)>, j: nat)
    requires j < |table| && DistinctOffsets(table)
    ensures Untouched(params, table[j + 1..], table[j].1)
  {
    var rest := table[j + 1..];
    assert forall i :: 0 <= i < |rest| ==> rest[i] == table[j + 1 + i];
  }

  /** `create_3xosc_fst(params, output_path, template_path)` on the template's
      bytes and the parsed JSON `params`: the bytes it writes, or the
      exception it raises. Only a JSON object has the `get` the loop calls. */
  function Create3xOscFst(template: seq<uint8>, params: Value)
    : (r: Result<seq<uint8>, PatchError>)
    ensures r.Ok? ==> params.Obj? && |r.value| == |template|
    ensures r.Err? ==> (r.error.NotAnObject? <==> !params.Obj?)
    ensures r.Err? && params.Obj? ==> IsSet(params.fields, r.error.key)
  {
    match params
    case Obj(fields) => Patch(template, fields, OscOffsets)
    case _ => Err(NotAnObject)
  }

  /** On a JSON object the call is the loop over the table. */
  lemma Create3xOscFstObject(template: seq<uint8>, params: map<string, Value>)
    ensures Create3xOscFst(template, Obj(params)) == Patch(template, params, OscOffsets)
  {
  }

  /** The call returns normally exactly when `params` is an object whose set
      parameters all convert and whose offsets all lie inside the template. */
  lemma Create3xOscFstOk(template: seq<uint8>, params: Value)
    ensures Create3xOscFst(template, params).Ok? <==> params.Obj? && Writable(template, params.fields, OscOffsets)
  {
    if params.Obj? {
      PatchOk(template, params.fields, OscOffsets);
    }
  }

  /** Each offset is below the next one. */
  predicate Increasing(table: seq<(string, nat)>) {
    forall j :: 0 <= j < |table| - 1 ==> table[j].1 < table[j + 1].1
  }

  lemma {:induction false} IncreasingBelow(table: seq<(string, nat)>, j: nat, k: nat)
    requires Increasing(table) && j < k < |table|
    ensures table[j].1 < table[k].1
    decreases k - j
  {
    if j + 1 < k {
      IncreasingBelow(table, j + 1, k);
    }
  }

  lemma IncreasingDistinct(table: seq<(string, nat)>)
    requires Increasing(table)
    ensures DistinctOffsets(table)
  {
    forall j, k | 0 <= j < k < |table|
      ensures table[j].1 != table[k].1
    {
      IncreasingBelow(table, j, k);
    }
  }

  /** No two parameters share a byte. */
  lemma OscOffsetsDistinct()
    ensures DistinctOffsets(OscOffsets)
  {
    assert Increasing(OscOffsets);
    IncreasingDistinct(OscOffsets);
  }

  /** Every offset lies inside a template of 248 bytes or more. */
  lemma OscOffsetsBelow()
    ensures forall j :: 0 <= j < |OscOffsets| ==> OscOffsets[j].1 <= 247
  {
    assert Increasing(OscOffsets);
    forall j | 0 <= j < |OscOffsets|
      ensures OscOffsets[j].1 <= 247
    {
      if j < 20 {
        IncreasingBelow(OscOffsets, j, 20);
      }
    }
  }

  /** Sufficient conditions for `Writable`: every offset fits and the value of
      every set parameter of the table converts. */
  lemma WritableWhen(data: seq<uint8>, params: map<string, Value>, table: seq<(string, nat)>)
    requires forall j :: 0 <= j < |table| ==> table[j].1 < |data|
    requires forall j :: 0 <= j < |table| && IsSet(params, table[j].0) ==>
      FieldByte(table[j].0, Get(params, table[j].0)).Some?
    ensures Writable(data, params, table)
  {
  }

  /** A template long enough for the table, with the value of every set
      parameter of the table convertible, is patched without an exception.
      Keys outside the table are never read. */
  lemma Create3xOscFstSucceeds(template: seq<uint8>, params: map<string, Value>)
    requires |template| >= 248
    requires forall j :: 0 <= j < |OscOffsets| && IsSet(params, OscOffsets[j].0) ==>
      FieldByte(OscOffsets[j].0, Get(params, OscOffsets[j].0)).Some?
    ensures Create3xOscFst(template, Obj(params)).Ok?
  {
    Create3xOscFstObject(template, params);
    OscOffsetsBelow();
    WritableWhen(template, params, OscOffsets);
    PatchOk(template, params, OscOffsets);
  }

  /** `r` is `data` with exactly the set parameters of `table` written: the
      same length, each set parameter's byte at its offset, and every byte
      no set parameter is stored at as in `data`. */
  predicate PatchedFrom(r: seq<uint8>, data: seq<uint8>, params: map<string, Value>, table: seq<(string, nat)>) {
    && |r| == |data|
    && (forall i :: 0 <= i < |data| && Untouched(params, table, i) ==> r[i] == data[i])
    && (forall j :: 0 <= j < |table| && IsSet(params, table[j].0) ==>
          && table[j].1 < |r|
          && FieldByte(table[j].0, Get(params, table[j].0)).Some?
          && r[table[j].1] == FieldByte(table[j].0, Get(params, table[j].0)).value)
  }

  /** The result is the template with exactly the set parameters' bytes
      replaced. */
  lemma Create3xOscFstBytes(template: seq<uint8>, params: map<string, Value>)
    requires Create3xOscFst(template, Obj(params)).Ok?
    ensures PatchedFrom(Create3xOscFst(template, Obj(params)).value, template, params, OscOffsets)
  {
    Create3xOscFstObject(template, params);
    OscOffsetsDistinct();
    PatchBytes(template, params, OscOffsets);
  }

  /** The loop over a table with distinct offsets replaces exactly the set
      parameters' bytes. */
  lemma PatchBytes(data: seq<uint8>, params: map<string, Value>, table: seq<(string, nat)>)
    requires Patch(data, params, table).Ok? && DistinctOffsets(table)
    ensures PatchedFrom(Patch(data, params, table).value, data, params, table)
  {
    forall i | 0 <= i < |data| && Untouched(params, table, i)
      ensures Patch(data, params, table).value[i] == data[i]
    {
      PatchKeeps(data, params, table, i);
    }
    forall j | 0 <= j < |table| && IsSet(params, table[j].0)
      ensures && table[j].1 < |data|
              && FieldByte(table[j].0, Get(params, table[j].0)).Some?
              && Patch(data, params, table).value[table[j].1]
                   == FieldByte(table[j].0, Get(params, table[j].0)).value
    {
      PatchWrites(data, params, table, j);
    }
  }

  /** A table none of whose parameters is set, each one missing or null,
      leaves `data` as it is. */
  lemma PatchNothingSet(data: seq<uint8>, params: map<string, Value>, table: seq<(string, nat)>)
    requires forall j :: 0 <= j < |table| ==> !IsSet(params, table[j].0)
    ensures Patch(data, params, table) == Ok(data)
  {
    PatchSkip(data, params, table, |table|);
    assert table[|table|..] == [];
  }

  /** The byte at the offset of the `j`-th table entry, when that entry is set. */
  lemma Create3xOscFstAt(template: seq<uint8>, params: map<string, Value>, j: nat)
    requires Create3xOscFst(template, Obj(params)).Ok?
    requires j < |OscOffsets| && IsSet(params, OscOffsets[j].0)
    ensures OscOffsets[j].1 < |template| && FieldByte(OscOffsets[j].0, Get(params, OscOffsets[j].0)).Some?
    ensures Create3xOscFst(template, Obj(params)).value[OscOffsets[j].1]
              == FieldByte(OscOffsets[j].0, Get(params, OscOffsets[j].0)).value
  {
    Create3xOscFstObject(template, params);
    OscOffsetsDistinct();
    PatchWrites(template, params, OscOffsets, j);
  }

  /** The other set parameters of the table: each of them converts. */
  predicate OthersConvert(params: map<string, Value>, j: nat) {
    forall i :: 0 <= i < |OscOffsets| && i != j && IsSet(params, OscOffsets[i].0) ==>
      FieldByte(OscOffsets[i].0, Get(params, OscOffsets[i].0)).Some?
  }

  /** A set parameter whose value converts is written at its offset, whatever
      the other parameters hold, as long as those the table names convert. */
  lemma WrittenAt(template: seq<uint8>, params: map<string, Value>, j: nat)
    requires |template| >= 248 && j < |OscOffsets| && IsSet(params, OscOffsets[j].0)
    requires FieldByte(OscOffsets[j].0, Get(params, OscOffsets[j].0)).Some? && OthersConvert(params, j)
    ensures var r := Create3xOscFst(template, Obj(params));
            r.Ok? && OscOffsets[j].1 < |r.value|
            && r.value[OscOffsets[j].1] == FieldByte(OscOffsets[j].0, Get(params, OscOffsets[j].0)).value
  {
    Create3xOscFstSucceeds(template, params);
    Create3xOscFstAt(template, params, j);
  }

  /** With no parameter of the table set, each one missing or null, the
      template comes back unchanged, whatever its length. */
  lemma Create3xOscFstNothingSet(template: seq<uint8>, params: map<string, Value>)
    requires forall j :: 0 <= j < |OscOffsets| ==> !IsSet(params, OscOffsets[j].0)
    ensures Create3xOscFst(template, Obj(params)) == Ok(template)
  {
    Create3xOscFstObject(template, params);
    PatchNothingSet(template, params, OscOffsets);
  }

  /** An empty parameter map returns the template unchanged. */
  lemma Create3xOscFstEmpty(template: seq<uint8>)
    ensures Create3xOscFst(template, Obj(map[])) == Ok(template)
  {
    Create3xOscFstNothingSet(template, map[]);
  }

  /** The first three entries of the table. */
  lemma OscEntries()
    ensures |OscOffsets| == 21
    ensures OscOffsets[0] == ("osc1_waveform", 159)
    ensures OscOffsets[1] == ("osc1_coarse", 163) && OscOffsets[1..][0] == OscOffsets[1]
    ensures OscOffsets[2] == ("osc1_fine", 167)
  {
  }

  /** Unset entries at the head of the table are passed over: the loop goes
      on as if they were not in the table. */
  lemma {:induction false} PatchSkip(data: seq<uint8>, params: map<string, Value>, table: seq<(string, nat)>, j: nat)
    requires j <= |table|
    requires forall i :: 0 <= i < j ==> !IsSet(params, table[i].0)
    ensures Patch(data, params, table) == Patch(data, params, table[j..])
    decreases j
  {
    if j > 0 {
      PatchSkipHead(data, params, table);
      assert forall i :: 0 <= i < j - 1 ==> table[1..][i] == table[i + 1];
      PatchSkip(data, params, table[1..], j - 1);
      assert table[1..][j - 1..] == table[j..];
    }
  }

  /** The first set parameter that does not convert raises, naming it, when
      every set parameter before it converts and fits in `data`. */
  lemma PatchRaises(data: seq<uint8>, params: map<string, Value>, table: seq<(string, nat)>, j: nat)
    requires j < |table| && Writable(data, params, table[..j])
    requires IsSet(params, table[j].0) && FieldByte(table[j].0, Get(params, table[j].0)).None?
    ensures Patch(data, params, table) == Err(NotAnInteger(table[j].0))
  {
    var d := PatchPrefix(data, params, table, j);
    assert table[j..][0] == table[j];
    PatchRaisesHead(d, params, table[j..]);
  }

  /** Running the loop over a writable prefix of the table leaves data of
      the same length for the rest of the loop. */
  lemma {:induction false} PatchPrefix(data: seq<uint8>, params: map<string, Value>, table: seq<(string, nat)>, j: nat)
    returns (d: seq<uint8>)
    requires j <= |table| && Writable(data, params, table[..j])
    ensures |d| == |data|
    ensures Patch(data, params, table) == Patch(d, params, table[j..])
    decreases j
  {
    if j == 0 {
      d := data;
    } else {
      var d1 := PatchStep(data, params, table, j);
      d := PatchPrefix(d1, params, table[1..], j - 1);
      assert table[1..][j - 1..] == table[j..];
    }
  }

  /** One step of the loop over an entry that is unset, or set and
      writable: the rest of the loop runs on the data it leaves. */
  lemma PatchStep(data: seq<uint8>, params: map<string, Value>, table: seq<(string, nat)>, j: nat)
    returns (d: seq<uint8>)
    requires 0 < j <= |table| && Writable(data, params, table[..j])
    ensures |d| == |data|
    ensures Patch(data, params, table) == Patch(d, params, table[1..])
    ensures Writable(d, params, table[1..][..j - 1])
  {
    var key := table[0].0;
    assert table[..j][0] == table[0];
    if IsSet(params, key) {
      assert FieldByte(key, Get(params, key)).Some? && table[0].1 < |data|;
      d := data[table[0].1 := FieldByte(key, Get(params, key)).value];
      PatchWriteHead(data, params, table);
    } else {
      d := data;
      PatchSkipHead(data, params, table);
    }
    WritableTail(data, d, params, table, j);
  }

  lemma PatchRaisesHead(data: seq<uint8>, params: map<string, Value>, table: seq<(string, nat)>)
    requires table != [] && IsSet(params, table[0].0)
    requires FieldByte(table[0].0, Get(params, table[0].0)).None?
    ensures Patch(data, params, table) == Err(NotAnInteger(table[0].0))
  {
  }

  lemma PatchSkipHead(data: seq<uint8>, params: map<string, Value>, table: seq<(string, nat)>)
    requires table != [] && !IsSet(params, table[0].0)
    ensures Patch(data, params, table) == Patch(data, params, table[1..])
  {
  }

  lemma PatchWriteHead(data: seq<uint8>, params: map<string, Value>, table: seq<(string, nat)>)
    requires table != [] && IsSet(params, table[0].0) && table[0].1 < |data|
    requires FieldByte(table[0].0, Get(params, table[0].0)).Some?
    ensures Patch(data, params, table)
         == Patch(data[table[0].1 := FieldByte(table[0].0, Get(params, table[0].0)).value], params, table[1..])
  {
  }

  /** Dropping the head of the checked prefix keeps it writable, into any
      data of the same length. */
  lemma WritableTail(data: seq<uint8>, d: seq<uint8>, params: map<string, Value>, table: seq<(string, nat)>, j: nat)
    requires 0 < j <= |table| && |d| == |data| && Writable(data, params, table[..j])
    ensures Writable(d, params, table[1..][..j - 1])
  {
    var t := table[1..][..j - 1];
    var u := table[..j];
    forall i | 0 <= i < |t| && IsSet(params, t[i].0)
      ensures FieldByte(t[i].0, Get(params, t[i].0)).Some? && t[i].1 < |d|
    {
      assert t[i] == u[i + 1];
    }
  }

  /** A waveform parameter given by name, in any letter case, stores the
      name's code, and 0 for a name the map does not know. */
  lemma WaveformByName(template: seq<uint8>, params: map<string, Value>, j: nat, name: string)
    requires |template| >= 248 && j < |OscOffsets| && Contains(OscOffsets[j].0, "waveform")
    requires Get(params, OscOffsets[j].0) == Str(name) && OthersConvert(params, j)
    ensures var r := Create3xOscFst(template, Obj(params));
            r.Ok? && OscOffsets[j].1 < |r.value| && r.value[OscOffsets[j].1] == WaveformCode(AsciiLower(name))
  {
    WrittenAt(template, params, j);
  }

  /** Names are looked up in lower case, and an unknown name selects 0. */
  lemma WaveformNames()
    ensures WaveformCode(AsciiLower("SAW")) == 2
    ensures WaveformCode(AsciiLower("Pulse")) == 0
  {
    LowerSaw();
    LowerPulse();
    assert "pulse" !in WaveformMap;
  }

  lemma LowerSaw()
    ensures AsciiLower("SAW") == "saw"
  {
    var r := AsciiLower("SAW");
    assert r[0] == 's' && r[1] == 'a' && r[2] == 'w';
  }

  lemma LowerPulse()
    ensures AsciiLower("Pulse") == "pulse"
  {
    var r := AsciiLower("Pulse");
    assert r[0] == 'p' && r[1] == 'u' && r[2] == 'l' && r[3] == 's' && r[4] == 'e';
  }

  /** A number above 255 is stored as 255, whichever parameter it is for. */
  lemma LargeNumberClamped(template: seq<uint8>, params: map<string, Value>, j: nat, big: int)
    requires |template| >= 248 && j < |OscOffsets| && big > 255
    requires Get(params, OscOffsets[j].0) == Int(big) && OthersConvert(params, j)
    ensures var r := Create3xOscFst(template, Obj(params));
            r.Ok? && OscOffsets[j].1 < |r.value| && r.value[OscOffsets[j].1] == 255
  {
    WrittenAt(template, params, j);
  }

  /** A negative number is stored as 0, whichever parameter it is for. */
  lemma NegativeNumberClamped(template: seq<uint8>, params: map<string, Value>, j: nat, negative: int)
    requires |template| >= 248 && j < |OscOffsets| && negative < 0
    requires Get(params, OscOffsets[j].0) == Int(negative) && OthersConvert(params, j)
    ensures var r := Create3xOscFst(template, Obj(params));
            r.Ok? && OscOffsets[j].1 < |r.value| && r.value[OscOffsets[j].1] == 0
  {
    WrittenAt(template, params, j);
  }

  /** No two entries of a table name the same parameter. */
  predicate DistinctKeys(table: seq<(string, nat)>) {
    forall j, k :: 0 <= j < k < |table| ==> table[j].0 != table[k].0
  }

  /** Each parameter has one entry in the table. */
  lemma OscKeysDistinct()
    ensures DistinctKeys(OscOffsets)
  {
    forall j, k | 0 <= j < k < |OscOffsets|
      ensures OscOffsets[j].0 != OscOffsets[k].0
    {
      var a, b := OscOffsets[j].0, OscOffsets[k].0;
      assert |a| != |b| || a[3] != b[3] || a[5] != b[5] || a[7] != b[7];
    }
  }

  /** In a table that names each parameter once, a word without digits as
      the only parameter, one that is not a waveform, makes `int()` raise. */
  lemma PatchWordRaises(data: seq<uint8>, params: map<string, Value>, table: seq<(string, nat)>, j: nat, word: string)
    requires DistinctKeys(table) && j < |table| && !Contains(table[j].0, "waveform")
    requires forall i :: 0 <= i < |word| ==> !IsDigit(word[i])
    requires params == map[table[j].0 := Str(word)]
    ensures Patch(data, params, table) == Err(NotAnInteger(table[j].0))
  {
    WordNone(table[j].0, word);
    OthersUnset(data, params, table, j);
    PatchRaises(data, params, table, j);
  }

  /** A word without digits for a parameter that is not a waveform does not
      convert. */
  lemma WordNone(key: string, word: string)
    requires !Contains(key, "waveform")
    requires forall i :: 0 <= i < |word| ==> !IsDigit(word[i])
    ensures FieldByte(key, Str(word)).None?
  {
    ParseIntNeedsDigit(word);
  }

  /** When only the `j`th parameter of a table without repeated names is
      given, the entries before it are unset, so nothing stops the loop
      before it. */
  lemma OthersUnset(data: seq<uint8>, params: map<string, Value>, table: seq<(string, nat)>, j: nat)
    requires DistinctKeys(table) && j < |table| && params.Keys == {table[j].0}
    ensures Writable(data, params, table[..j])
  {
    assert forall i :: 0 <= i < j ==> table[..j][i] == table[i];
  }

  /** A word without digits for a parameter that is not a waveform makes
      `int()` raise, naming that parameter, whatever the template. */
  lemma WordForNumberRaises(template: seq<uint8>, params: map<string, Value>, j: nat, word: string)
    requires j < |OscOffsets| && !Contains(OscOffsets[j].0, "waveform")
    requires forall i :: 0 <= i < |word| ==> !IsDigit(word[i])
    requires params == map[OscOffsets[j].0 := Str(word)]
    ensures Create3xOscFst(template, Obj(params)) == Err(NotAnInteger(OscOffsets[j].0))
  {
    OscKeysDistinct();
    PatchWordRaises(template, params, OscOffsets, j, word);
    Create3xOscFstObject(template, params);
  }

  /** A template too short for a set parameter's offset makes the write raise. */
  lemma ShortTemplateRaises(template: seq<uint8>)
    requires |template| <= 159
    ensures Create3xOscFst(template, Obj(map["osc1_waveform" := Int(1)])) == Err(OffsetOutOfRange("osc1_waveform", 159))
  {
  }
}
